=== FILE: README.md ===
# alert-alert: a Dafny model of the clip-processing core

alert-alert is a small Flask application that cuts a clip out of an online
or uploaded video, crops it to a chosen frame, normalises its audio, appends a
still "end buffer" and encodes the result with ffmpeg. This project models the
decision and arithmetic logic of its `app.py`, and proves properties of it:

- **`JobIds`**: the job-id guard `is_safe_job_id`, and the ids minted with
  `uuid4().hex[:8]`.
- **`VideoUrls`**: `clean_video_url`, over the already-parsed pieces of the URL
  (network location, path, first `v` query value).
- **`Timestamps`**: `parse_timestamp_to_seconds`, over exact reals, with
  Python's `float()` as a parameter.
- **`Downloads`**: the validation block of `download_clip` and the job record
  it creates.
- **`Uploads`**: the extension check of `upload_video`, the saved file name and
  the two records it writes.
- **`FfmpegErrors`**: how `run_ffmpeg` turns a failed run's standard error into
  the job's error message.
- **`Geometry`**: the crop clamp and the output size derived from the crop's
  aspect ratio in `run_processing_pipeline`.
- **`Pipeline`**: the rest of `run_processing_pipeline` and `process_video`:
  - which `-ss`/`-t` flags each input gets;
  - which input supplies the audio;
  - the ordered stage plan of tool steps and the `jobs` records between them;
  - how the steps' outcomes decide the records a run leaves behind.
- **`Jobs`**: the shapes of the records in the `jobs` dictionary, which is a map
  from job id to record.
- **`Text`**: the Python string operations the code uses (`strip`, `split`,
  `join`, `lower`, `in`, `rsplit`).
- **`Wrappers`**: `Option` and `Result`.

The tool invocations (ffprobe, ffmpeg) are opaque steps. A run is parameterised
by each step's outcome: success, a non-zero exit with its standard error, or a
raised Python exception.

Behaviours this model follows from the code:

- The output size is computed from the crop as requested (app.py:642-653),
  before the crop is clamped to the frame (app.py:719-722).
- With `use_separate_audio` set and no `audio.*` file, the combined ffmpeg
  command is handed `None` as an input path. The job then ends in `error` with
  the resulting `TypeError` (`Pipeline.MissingAudioFails`).
- The loudness analysis is run without the exit-status check. Only an
  exception there stops the run (`Pipeline.FailureOf`).
- Where the code has a defect (see "## Findings"), both readings are modelled.
  The full run and `/api/process` (`Pipeline.RunPipeline`,
  `Pipeline.StartProcessing`) are built on the corrected halves;
  `FfmpegErrors.FailureMessageAsWritten` and `Pipeline.StartProcessingAsWritten`
  state what the code as written does instead.
- Some behaviour is described for this application but is not in `app.py`. The
  model follows the code and leaves these out:
  - weighted progress;
  - cancellation;
  - rejecting a crop that falls outside the frame;
  - a minimum clip length;
  - clamping the end buffer to 0–5 seconds;
  - refusing a second processing request. `process_video` overwrites the record
    unconditionally, which `Pipeline.ProcessingRestarts` states.

## Model

| member | source | states |
|---|---|---|
| JobIds.CheckJobId | app.py:109-114 | accepts exactly the non-empty ids made only of ASCII letters, digits, `_` and `-` |
| JobIds.AsWrittenAgreesOtherwise | app.py:111-114 | every id the intended guard accepts passes the regular expression; for ids not ending in a newline the two agree exactly |
| JobIds.AsWrittenAcceptsTrailingNewline | app.py:114 | the anchored regular expression as written accepts `"a\n"`, which the intended guard rejects |
| JobIds.IsSafeJobIdAsWritten | app.py:114 | an id the regular expression as written accepts is non-empty and has no `/`, `\` or `.`; a newline in it can only be its last character |
| JobIds.SafeIdHasNoPathSyntax | app.py:109-110 | an accepted id contains no `/`, `\`, `.` or newline, so it names a single entry below the jobs directory |
| JobIds.MintedIdIsSafe | app.py:421 | every 8-character lower-case hexadecimal id the handlers mint passes both the intended and the written guard |
| VideoUrls.WatchIdOf | app.py:222 | reading the id back out of a URL: when it succeeds, the canonical watch URL of that id is the URL; it fails only on URLs without the watch prefix |
| VideoUrls.WatchIdRoundTrip | app.py:233 | the id of the canonical watch URL built for a video id is that video id |
| VideoUrls.CleanVideoUrl | app.py:196-238 | the result is the input unchanged or a canonical watch URL, and it is empty exactly when the input is |
| VideoUrls.CleanPassesOtherHosts | app.py:211-217 | Instagram and TikTok links, and links to hosts the cleaner does not recognise, come back unchanged |
| VideoUrls.CleanShortLink | app.py:220-222 | a `youtu.be` link becomes the watch URL whose id is the path with its surrounding slashes removed |
| VideoUrls.CleanWatchLink | app.py:225-236 | a youtube.com link with a non-empty `v` becomes the watch URL of that id; without one it is unchanged |
| VideoUrls.VmTikTokIsTikTok | app.py:216 | the `vm.tiktok.com` test is subsumed by the `tiktok.com` test |
| VideoUrls.PlatformOf | app.py:209-225 | the first matching test wins: Instagram exactly when an Instagram marker occurs; otherwise TikTok exactly when `tiktok.com` occurs; otherwise a short link exactly when `youtu.be` occurs; otherwise YouTube exactly when `youtube.com` occurs; otherwise no marker occurs |
| VideoUrls.CanonicalHostIsYouTube | app.py:209-225 | in the cleaner's test order, `www.youtube.com` is classified as YouTube and not as Instagram, TikTok or a short link |
| VideoUrls.CleanCanonicalIsFixedPoint | app.py:225-233 | for a video id of letters, digits, `_` and `-`, cleaning its canonical watch URL returns it unchanged, so cleaning is idempotent on what it produces for such ids |
| Timestamps.ToNumbers | app.py:296 | the list comprehension succeeds exactly when every field converts, yielding each field's number in order; otherwise it reports a field that does not convert |
| Timestamps.ParseTimestampFields | app.py:293-302 | three fields h:m:s give `3600h + 60m + s`, two give `60m + s`, any other count gives the first field; the parse fails exactly when some field does not convert |
| Timestamps.ParseTimestamp | app.py:293-302 | the parse succeeds exactly when every colon-separated field of the stripped text converts; a failure names one of those fields, which `float()` rejects and which holds no colon |
| Timestamps.ClockPartsRoundTrip | app.py:297-298 | reading the h, m, s clock form of a whole number of seconds gives that number back |
| Timestamps.ShorterFormsAgree | app.py:297-302 | `0:M:S` reads as `M:S`, and `0:S` as `S` |
| Timestamps.ExtraFieldsIgnored | app.py:301-302 | four or more fields are not rejected: the value is the first field |
| Downloads.Window | app.py:408-411 | a start/end pair is accepted exactly when both parse and the end is strictly later, and then carries the parsed values; when both parse and the end is not later, the error is the given "end not after start" error |
| Downloads.ValidateDownload | app.py:389-419 | an accepted request has its end after its start, and its audio end after its audio start when separate audio is used |
| Downloads.UsesSeparateAudio | app.py:400-403 | separate audio is used exactly when the raw audio URL and both raw audio times are non-blank: cleaning never empties a URL |
| Downloads.CleanFieldEmptyIff | app.py:391-400 | a stripped and cleaned URL field is empty exactly when the raw field is blank |
| Downloads.MissingFieldIff | app.py:405-406 | "Missing url, start, or end" is returned exactly when the URL, the start or the end is blank |
| Downloads.EndNotAfterStartRejected | app.py:410-411 | an end at or before the start is rejected with "End time must be after start time", whatever the audio fields hold |
| Downloads.DownloadAcceptedIff | app.py:403-419 | a request is accepted exactly when its three fields are present, the end follows the start, and, when separate audio is used, the audio end follows the audio start |
| Downloads.AcceptedTimes | app.py:408-411 | an accepted job carries the parsed start and end times |
| Downloads.AcceptedIdentity | app.py:391-421 | an accepted job carries the minted id and the cleaned, non-empty URL |
| Downloads.AcceptedAudio | app.py:399-419 | separate audio is used exactly when the audio URL and both audio times are present; the job then carries the parsed audio times, and otherwise the window `(0, 0)` |
| Downloads.AudioTimesIgnoredUnlessSeparate | app.py:413-419 | without separate audio, the audio times never affect the outcome |
| Downloads.StartDownload | app.py:421-423 | an accepted request registers its job under the fresh id and leaves every other job unchanged |
| Downloads.AcceptedJobIsDownloading | app.py:423 | the new job's record has status `downloading` and progress 0 |
| Uploads.ExtensionOf | app.py:450 | the extension contains no dot, and a name without a dot has the empty extension |
| Uploads.ExtensionSplitsName | app.py:450 | a name with a dot is a stem, a dot and a dot-free tail, and the extension is the lower-cased tail |
| Uploads.ExtensionIgnoresCase | app.py:450 | a name and its lower-case form have the same extension |
| Uploads.StartUpload | app.py:439-462 | "No video file provided" exactly when the form has no `video` part; "No file selected" exactly for an empty name; accepted exactly when the extension is allowed, and then saved as `clip.<ext>` under the fresh id |
| Uploads.SavedNameIsSafe | app.py:449-459 | the saved name is `clip.` followed by an allowed extension, with no path separator, whatever name the client sent |
| Uploads.UploadEndsDownloaded | app.py:462-487 | an accepted upload writes `uploading` at 50%, then `downloaded` with the saved clip |
| Uploads.UploadIgnoresCase | app.py:450-451 | a file name and its lower-case form are accepted or rejected alike, with the same saved name |
| FfmpegErrors.Diagnostics | app.py:611-613 | the kept lines are exactly the lines holding a keyword, case-insensitively |
| FfmpegErrors.DiagnosticsAppend | app.py:611-613 | the filter distributes over concatenation, so the kept lines stay in their original order |
| FfmpegErrors.DiagnosticNonEmpty | app.py:612 | a kept line is never empty |
| FfmpegErrors.StderrLines | app.py:610 | splitting the stripped standard error always yields at least one line |
| FfmpegErrors.BlankStderrAsWritten | app.py:610-614 | as written, blank standard error gives an empty detail: the `"Unknown error"` branch is never reached |
| FfmpegErrors.ErrorDetailAsWritten | app.py:610-614 | with something on standard error, the detail as written is not empty |
| FfmpegErrors.ErrorDetail | app.py:614 | the detail is never empty, and is `"Unknown error"` for blank standard error |
| FfmpegErrors.DiagnosticsReported | app.py:611-614 | when some lines hold a keyword, splitting the detail on newlines gives back exactly those lines, in order |
| FfmpegErrors.FallbackIsLastLine | app.py:614 | without keyword lines, the detail is the whole last line of the stripped standard error: non-empty, newline-free, ending the text, and either all of it or just after a newline |
| FfmpegErrors.PickDiagnostics | app.py:611-613 | the loop over the lines keeps exactly the filter's lines |
| FfmpegErrors.IsDiagnosticLine | app.py:611-612 | the loop over the keywords decides exactly whether the lower-cased line contains one |
| FfmpegErrors.ExtractErrorDetail | app.py:608-614 | the line-by-line extraction computes the intended detail |
| FfmpegErrors.FailureMessage | app.py:615 | the raised message starts with `ffmpeg error: ` and carries a non-empty detail after it |
| FfmpegErrors.FailureMessageAsWritten | app.py:610-615 | as written, the message starts with `ffmpeg error: `; for blank standard error it is that prefix alone, otherwise it equals the intended message |
| Geometry.ClampCrop | app.py:719-722 | the clamped rectangle lies inside the frame, with each side cut to the frame's size |
| Geometry.ClampFixesExactlyInside | app.py:719-722 | the clamp leaves a rectangle unchanged exactly when it already lies inside the frame |
| Geometry.ClampIdempotent | app.py:719-722 | clamping twice is clamping once |
| Geometry.ClampKeepsFittingAxis | app.py:719-722 | an axis on which the rectangle already fits keeps its position and size |
| Geometry.Trunc | app.py:649 | `int()` truncates toward zero: within one below a non-negative value, within one above a negative value |
| Geometry.CropAspect | app.py:642-644 | the aspect is 1 when a side is zero, and otherwise width over height |
| Geometry.AspectOfPositiveCrop | app.py:643-646 | for a crop with positive sides, the wide branch is taken exactly when the width is at least the height |
| Geometry.OutputDims | app.py:646-653 | a wide or square crop's output width is the resolution; a tall crop's output height is the resolution |
| Geometry.ZeroSideGivesSquare | app.py:642-649 | a crop with a zero side gives a `resolution` × `resolution` output |
| Geometry.WideCropBounds | app.py:646-649 | a wide or square crop gives width `resolution` and a height between 0 and `resolution` |
| Geometry.TallCropBounds | app.py:650-653 | a tall crop gives height `resolution` and a width of at most `resolution`, not negative for a crop with positive sides |
| Geometry.WideHeightIsQuotient | app.py:646-649 | for a wide crop, the output height is the integer quotient `resolution · h / w` |
| Geometry.TallWidthIsQuotient | app.py:650-653 | for a tall crop, the output width is the integer quotient `resolution · w / h` |
| Pipeline.TrimFlagsOf | app.py:736-742 | `-ss` is emitted exactly for a positive start, and `-t` exactly for a positive end after the start |
| Pipeline.TrimSelectsWindow | app.py:819-821 | for a non-negative start before a positive end, the input reads exactly from the start to the end |
| Pipeline.TrimNegativeStart | app.py:736-742 | for a negative start before a positive end, no seek is emitted but the length is `end - start`, so the input reads from the beginning to `end - start`, past the requested end |
| Pipeline.TrimOpenEnded | app.py:791-792 | an end of zero, or one not after the start, reads from the start (or the beginning) to the end of the source |
| Pipeline.CombinedInputs | app.py:785-817 | the audio index names one of the inputs, and there is a single input exactly when neither separate audio nor a still image is requested |
| Pipeline.AudioInputSource | app.py:801-817 | the audio comes from the audio file (or `None` when it is missing) when separate audio is requested, and from the clip otherwise; it is read from the trimmed start |
| Pipeline.VideoInputSource | app.py:785-795 | the still image replaces the clip exactly when it was requested and found; it is looped and not seeked, and otherwise the clip is seeked to the trim start |
| Pipeline.AnalysisInput | app.py:725-742 | the loudness analysis never reads `None` |
| Pipeline.AnalysisMatchesCombinedAudio | app.py:725-807 | the analysis measures the audio the combined pass uses, except exactly when separate audio is requested and missing; both use the same seek |
| Pipeline.NoPathIff | app.py:803-807 | the combined command is handed `None` exactly when separate audio is requested and no audio file exists |
| Pipeline.PlanSteps | app.py:677-890 | the steps run are the probe(s), the loudness analysis iff `normalize_audio`, the combined pass, last frame, still buffer and join iff `buffer_duration > 0`, then the final encode |
| Pipeline.PlanStepsOrdered | app.py:727-890 | the steps run in source order, none repeated |
| Pipeline.OptionalStepsIff | app.py:699-864 | each optional step runs exactly when its setting asks for it; the probe, the combined pass and the final encode always run |
| Pipeline.AacOnlyAtTheEnd | app.py:836-887 | the final encode is the last step and the only one that writes AAC audio |
| Pipeline.PlanMarks | app.py:731-897 | the records written are `Analyzing` iff `normalize_audio`, `Combining`, `Buffering` and `Joining` iff `buffer_duration > 0`, `Encoding`, then `complete` with `alert_<id>.mp4` |
| Pipeline.ExpectedProgress | app.py:731-897 | from `Starting...` at 0 through every record of each plan shape, progress strictly increases |
| Pipeline.ProgressIncreases | app.py:731-897 | from the 0 written at the start, the plan's records carry strictly increasing progress, ending at 100 |
| Pipeline.FailureOf | app.py:750-752 | success records nothing; an exception records its message; a non-zero exit stops every step except the unchecked loudness analysis |
| Pipeline.ExitFailureMessage | app.py:608-615 | a non-zero exit of a checked step records the `ffmpeg error: ` message |
| Pipeline.StagePlan | app.py:727-897 | a plan ends with the `complete` record naming `alert_<id>.mp4`, and every record before it is an in-flight one |
| Pipeline.Execute | app.py:727-900 | a run writes at most one record per planned event |
| Pipeline.ExecuteAllSucceed | app.py:727-897 | when no step fails, a run writes exactly the plan's records |
| Pipeline.ExecuteStopsAtFailure | app.py:899-900 | the first failing step ends the run: the records before it, then the error record |
| Pipeline.ExecuteEndsTerminal | app.py:892-900 | a plan of in-flight records followed by a terminal one leaves a terminal record last, with only in-flight records before it |
| Pipeline.EffectiveOutcome | app.py:807 | a `None` input makes the combined pass raise; without one the combined pass keeps its outcome, and every other step always does |
| Pipeline.RunPipeline | app.py:655-900 | a run without a clip writes only "No clip found"; every run ends with a `complete` or `error` record |
| Pipeline.RunEndsTerminal | app.py:660-900 | every run ends in `complete` or `error`, and every earlier record is `processing` |
| Pipeline.RunCompletes | app.py:727-897 | when the clip exists, the inputs are all paths and no step fails, the run writes exactly the expected records |
| Pipeline.NeverFinishedWithFailingStep | app.py:899-900 | a run in which some planned step fails ends with an error record |
| Pipeline.MissingAudioFails | app.py:803-807 | separate audio requested without an audio file always ends the job in `error` |
| Pipeline.PlanInvokesCombinedPass | app.py:841 | every plan runs the combined pass |
| Pipeline.StartProcessing | app.py:941-955 | an unsafe id is refused with "Invalid job_id"; a safe one gets the `Starting...` record at 0, and every other job is unchanged |
| Pipeline.StartProcessingAsWritten | app.py:941-955 | behind the guard as written, an id is refused exactly when the regular expression rejects it; an accepted one gets the `Starting...` record and every other job is unchanged |
| Pipeline.StartProcessingAsWrittenDiffers | app.py:114 | the endpoint as written starts a job for `"a\n"`, which the intended one refuses; on ids not ending in a newline the two agree |
| Pipeline.ProcessingRestarts | app.py:955 | a request for a job that already exists is not refused, and the set of jobs is unchanged |

## Left out

- The Flask routes, request parsing and defaults (`data.get`, `int()`, `float()` on form fields), JSON responses, `send_file`, static serving and shutdown. These are HTTP plumbing.
- `subprocess.run` calls to ffmpeg, ffprobe and yt-dlp, and the decoding of ffprobe's JSON. Each step's outcome is a parameter; the source width, height and frame rate do not appear.
- The yt-dlp download thread (`run_download_pipeline`) and `job_status`. They are I/O around the records modelled here.
- Background threads and the shared `jobs` dictionary. The model has one writer at a time; the code has no synchronisation to verify.
- `urlparse`/`parse_qs` and Python's `float()` on text. They are parameters (`split`, `toFloat`); a `float()` that raises is an `Err`.
- Downloads.ValidateDownload: a timestamp that `float()` rejects is an `Err(BadTimestamp)`. The handler instead raises `ValueError`, which Flask answers with status 500.
- Downloads.ValidateDownload, Downloads.Window, Downloads.DownloadAcceptedIff: times are exact reals, so `float()`'s NaN and infinities are not modelled. The code accepts `"nan"` to `"nan"`, because `nan <= nan` is false; these members promise an end strictly after the start, which no NaN pair satisfies.
- Geometry.OutputDims, Geometry.WideHeightIsQuotient, Geometry.TallWidthIsQuotient: use exact reals and unbounded integers. Two effects are not modelled. First, a value beyond float range makes the code raise `OverflowError`: a crop width of `10**400` with height 1 fails at app.py:644, and a settings resolution of `"1"` followed by 400 zeros, which `int()` accepts at app.py:937, fails at app.py:649. Second, binary floating-point rounding is not modelled. It affects `crop_aspect`, `resolution / crop_aspect` and `resolution * crop_aspect`. For a 7×10 crop at 720, the code computes `int(720 * 0.7)` = 503, because `0.7` is stored just below 0.7 and the product lands just below 504; the model and the quotient lemmas give `720 · 7 / 10` = 504.
- Pipeline.RunPipeline, Pipeline.RunEndsTerminal: model the part of `run_processing_pipeline` inside its `try` (app.py:655-900), so the guarantee that every run ends in `complete` or `error` holds only once the output size at app.py:642-653 has been computed. With a crop width of `10**400` and height 1, the `OverflowError` at app.py:644 is raised before the `try`. The thread dies, and the record written at app.py:955 stays `processing` / `Starting...` at 0.
- VideoUrls.CleanCanonicalIsFixedPoint: `parse_qs` decoding is not modelled, so the lemma covers only ids of letters, digits, `_` and `-`, whose `v` parameter reads back unchanged. An id holding `+`, `%xx`, `&` or `#` is decoded or cut by `parse_qs`, and its watch URL is not a fixed point of the code.
- Pipeline.StartProcessing: built on the intended guard, so it refuses `"a\n"`, which the code accepts. `Pipeline.StartProcessingAsWritten` models the code's guard.
- FfmpegErrors.FailureMessage: uses the intended detail, so blank standard error gives `ffmpeg error: Unknown error`. The code gives `ffmpeg error: `, which is what a failed `ffprobe -v quiet` leaves (app.py:677-680, 699-703). The full run (`Pipeline.FailureOf`) uses this intended message; `FfmpegErrors.FailureMessageAsWritten` models the code's.
- Frame-rate parsing and `round(fps)` (app.py:689-693), and the sample rate (app.py:695-716). These only affect command arguments.
- The parsing of the loudness JSON (app.py:754-773). A `json.JSONDecodeError` only drops the second loudnorm pass; the model does not track filter strings. JSON that parses but lacks one of the five keys raises a `KeyError`, which escapes the `except` and ends the job in `error`; the model covers this as a `Raised` outcome of the loudness analysis step.
- Saving the static image (app.py:945-953), and saving or probing an uploaded file (app.py:456-485).
- `find_tool`, `get_env`, the PyInstaller path setup, the `lru_cache` on video info, and `webbrowser`/waitress startup.
- Text.Lower: lower-cases ASCII letters only; Python's `str.lower` also folds non-ASCII letters.
- Pipeline.NonePathError: the exact wording of the `TypeError` message depends on the Python version.
- `tests/benchmark_perf.py` and the timing assertions of `tests/test_performance.py`. They measure wall-clock time against a real ffmpeg binary.

## Findings

| source | as written | input that shows it | evidently intended | confidence | as-written member | corrected member |
|---|---|---|---|---|---|---|
| app.py:114 | `re.match(r'^[a-zA-Z0-9_\-]+$', job_id)`: Python's `$` also matches before a final newline | job id `"a\n"` is accepted | accept only ids made entirely of letters, digits, `_` and `-` | medium, not executed | JobIds.AsWrittenAcceptsTrailingNewline | JobIds.CheckJobId |
| app.py:610-614 | `lines[-1] if lines else "Unknown error"`, where `lines` comes from `str.split`, which never returns an empty list | empty or all-whitespace stderr with a non-zero exit gives the message `"ffmpeg error: "` | report `"Unknown error"` when standard error is blank | medium, not executed | FfmpegErrors.BlankStderrAsWritten | FfmpegErrors.ErrorDetail |

=== FILE: downloads.dfy ===
/** The validation block of the `/api/download` handler (`download_clip`) and the
    job record it creates. The download itself runs in a background thread calling
    yt-dlp and is not part of this model. */
module Downloads {
  import opened Wrappers
  import opened Text
  import opened VideoUrls
  import opened Timestamps
  import opened Jobs

  /** The request body's text fields; a missing field is the empty string, as
      `data.get(name, "")` makes it. */
  datatype DownloadRequest = DownloadRequest(
    url: string, start: string, end: string,
    audioUrl: string, audioStart: string, audioEnd: string)

  /** The arguments handed to the download thread. */
  datatype DownloadJob = DownloadJob(
    id: string, url: string, startSec: real, endSec: real,
    useSeparateAudio: bool, audioUrl: string, audioStartSec: real, audioEndSec: real)

  datatype DownloadError =
    | MissingField            // "Missing url, start, or end"
    | EndNotAfterStart        // "End time must be after start time"
    | AudioEndNotAfterStart   // "Audio end time must be after start time"
    | BadTimestamp(field: string)  // `float()` raised on this field

  const DownloadingStage: string := "Downloading video clip..."

  /** The record a newly accepted download starts with. */
  const DownloadingRecord: JobRecord := Working(Downloading, 0, DownloadingStage)

  /** A URL field after `.strip()` and `clean_video_url`; `split` stands for `urlparse`. */
  function CleanField(raw: string, split: string -> Option<UrlParts>): string {
    var u := StripSpace(raw);
    CleanVideoUrl(u, split(u))
  }

  /** `use_separate_audio`: the audio URL and both audio times are all non-empty. */
  predicate UsesSeparateAudio(req: DownloadRequest, split: string -> Option<UrlParts>): (b: bool)
    ensures b <==> StripSpace(req.audioUrl) != "" && StripSpace(req.audioStart) != ""
                   && StripSpace(req.audioEnd) != ""
  {
    CleanField(req.audioUrl, split) != "" && StripSpace(req.audioStart) != "" && StripSpace(req.audioEnd) != ""
  }

  /** Parses a start and an end time, in that order, and requires the end to be
      strictly later; `tooEarly` is the error for an end at or before the start. */
  function Window(start: string, end: string, toFloat: string -> Option<real>, tooEarly: DownloadError): (r: Result<(real, real), DownloadError>)
    requires tooEarly != MissingField
    ensures r.Ok? <==> ParseTimestamp(start, toFloat).Ok? && ParseTimestamp(end, toFloat).Ok?
                       && ParseTimestamp(start, toFloat).value < ParseTimestamp(end, toFloat).value
    ensures r.Ok? ==> ParseTimestamp(start, toFloat) == Ok(r.value.0) && ParseTimestamp(end, toFloat) == Ok(r.value.1)
    ensures r.Err? ==> r.error != MissingField
    ensures r.Err? && ParseTimestamp(start, toFloat).Ok? && ParseTimestamp(end, toFloat).Ok? ==> r.error == tooEarly
  {
    match ParseTimestamp(start, toFloat)
    case Err(bad) => Err(BadTimestamp(bad))
    case Ok(s) =>
      match ParseTimestamp(end, toFloat)
      case Err(bad) => Err(BadTimestamp(bad))
      case Ok(e) => if e <= s then Err(tooEarly) else Ok((s, e))
  }

  /** The validation block of `download_clip`: the job the request describes, or
      the reason it is rejected. */
  function ValidateDownload(req: DownloadRequest, split: string -> Option<UrlParts>,
                            toFloat: string -> Option<real>, freshId: string): (r: Result<DownloadJob, DownloadError>)
    ensures r.Ok? ==> r.value.startSec < r.value.endSec
    ensures r.Ok? && r.value.useSeparateAudio ==> r.value.audioStartSec < r.value.audioEndSec
  {
    var url := CleanField(req.url, split);
    var start := StripSpace(req.start);
    var end := StripSpace(req.end);
    var separate := UsesSeparateAudio(req, split);
    if url == "" || start == "" || end == "" then Err(MissingField)
    else
      match Window(start, end, toFloat, EndNotAfterStart)
      case Err(e) => Err(e)
      case Ok(w) =>
        var audio := if separate then Window(StripSpace(req.audioStart), StripSpace(req.audioEnd), toFloat, AudioEndNotAfterStart)
                     else Ok((0.0, 0.0));
        match audio
        case Err(e) => Err(e)
        case Ok(a) => Ok(DownloadJob(freshId, url, w.0, w.1, separate, CleanField(req.audioUrl, split), a.0, a.1))
  }

  /** `download_clip` as a whole: a valid request registers its job under the
      freshly minted id `freshId` with the initial downloading record, and leaves
      every other job alone; an invalid one changes nothing. */
  function StartDownload(jobs: Registry, req: DownloadRequest, split: string -> Option<UrlParts>,
                         toFloat: string -> Option<real>, freshId: string): (r: Result<(DownloadJob, Registry), DownloadError>)
    ensures r.Ok? ==> r.value.1 == jobs[freshId := DownloadingRecord]
  {
    match ValidateDownload(req, split, toFloat, freshId)
    case Err(e) => Err(e)
    case Ok(job) => Ok((job, jobs[freshId := DownloadingRecord]))
  }

  /** Cleaning keeps a URL field empty exactly when it was blank. */
  lemma CleanFieldEmptyIff(raw: string, split: string -> Option<UrlParts>)
    ensures CleanField(raw, split) == "" <==> StripSpace(raw) == ""
  {
  }

  /** A request is rejected as incomplete exactly when its URL, start or end is blank. */
  lemma MissingFieldIff(req: DownloadRequest, split: string -> Option<UrlParts>,
                        toFloat: string -> Option<real>, freshId: string)
    ensures ValidateDownload(req, split, toFloat, freshId) == Err(MissingField) <==>
      StripSpace(req.url) == "" || StripSpace(req.start) == "" || StripSpace(req.end) == ""
  {
    CleanFieldEmptyIff(req.url, split);
    var r := ValidateDownload(req, split, toFloat, freshId);
    if StripSpace(req.url) != "" && StripSpace(req.start) != "" && StripSpace(req.end) != "" {
      var w := Window(StripSpace(req.start), StripSpace(req.end), toFloat, EndNotAfterStart);
      if w.Ok? && UsesSeparateAudio(req, split) {
        var a := Window(StripSpace(req.audioStart), StripSpace(req.audioEnd), toFloat, AudioEndNotAfterStart);
        assert r.Err? ==> r.error == a.error;
      }
      assert r != Err(MissingField);
    }
  }

  /** An accepted request carries the parsed start and end times. */
  lemma AcceptedTimes(req: DownloadRequest, split: string -> Option<UrlParts>,
                      toFloat: string -> Option<real>, freshId: string)
    ensures var r := ValidateDownload(req, split, toFloat, freshId);
      r.Ok? ==>
        && ParseTimestamp(StripSpace(req.start), toFloat) == Ok(r.value.startSec)
        && ParseTimestamp(StripSpace(req.end), toFloat) == Ok(r.value.endSec)
  {
    if ValidateDownload(req, split, toFloat, freshId).Ok? {
      var w := Window(StripSpace(req.start), StripSpace(req.end), toFloat, EndNotAfterStart);
      assert w.Ok?;
      assert ValidateDownload(req, split, toFloat, freshId).value.startSec == w.value.0;
      assert ValidateDownload(req, split, toFloat, freshId).value.endSec == w.value.1;
    }
  }

  /** An accepted request carries the minted id and the cleaned, non-empty URL. */
  lemma AcceptedIdentity(req: DownloadRequest, split: string -> Option<UrlParts>,
                         toFloat: string -> Option<real>, freshId: string)
    ensures var r := ValidateDownload(req, split, toFloat, freshId);
      r.Ok? ==> r.value.id == freshId && r.value.url == CleanField(req.url, split) && r.value.url != ""
  {
  }

  /** An accepted request uses separate audio exactly when the audio URL and both
      audio times are present; it then carries the parsed audio times, and
      otherwise the audio window `(0, 0)`. */
  lemma AcceptedAudio(req: DownloadRequest, split: string -> Option<UrlParts>,
                      toFloat: string -> Option<real>, freshId: string)
    ensures var r := ValidateDownload(req, split, toFloat, freshId);
      r.Ok? ==> var job := r.value;
      && (job.useSeparateAudio <==> UsesSeparateAudio(req, split))
      && (job.useSeparateAudio ==>
            && ParseTimestamp(StripSpace(req.audioStart), toFloat) == Ok(job.audioStartSec)
            && ParseTimestamp(StripSpace(req.audioEnd), toFloat) == Ok(job.audioEndSec))
      && (!job.useSeparateAudio ==> job.audioStartSec == 0.0 && job.audioEndSec == 0.0)
  {
    var r := ValidateDownload(req, split, toFloat, freshId);
    if r.Ok? {
      var w := Window(StripSpace(req.start), StripSpace(req.end), toFloat, EndNotAfterStart);
      assert w.Ok?;
      if UsesSeparateAudio(req, split) {
        var a := Window(StripSpace(req.audioStart), StripSpace(req.audioEnd), toFloat, AudioEndNotAfterStart);
        assert a.Ok?;
        assert r.value.audioStartSec == a.value.0 && r.value.audioEndSec == a.value.1;
      }
    }
  }

  /** An accepted request is registered as downloading with progress 0, the record
      the client's first poll sees. */
  lemma AcceptedJobIsDownloading(jobs: Registry, req: DownloadRequest, split: string -> Option<UrlParts>,
                                 toFloat: string -> Option<real>, freshId: string)
    ensures var r := StartDownload(jobs, req, split, toFloat, freshId);
      r.Ok? <==> ValidateDownload(req, split, toFloat, freshId).Ok?
    ensures var r := StartDownload(jobs, req, split, toFloat, freshId);
      r.Ok? ==> r.value.1[freshId].StatusOf() == Downloading && r.value.1[freshId].ProgressOf() == Some(0)
  {
  }

  /** A request is accepted exactly when its three required fields are present,
      its times parse with the end after the start, and, when separate audio is in
      use, the audio times parse with the audio end after the audio start. */
  lemma DownloadAcceptedIff(req: DownloadRequest, split: string -> Option<UrlParts>,
                            toFloat: string -> Option<real>, freshId: string)
    ensures var s := ParseTimestamp(StripSpace(req.start), toFloat);
      var e := ParseTimestamp(StripSpace(req.end), toFloat);
      var as_ := ParseTimestamp(StripSpace(req.audioStart), toFloat);
      var ae := ParseTimestamp(StripSpace(req.audioEnd), toFloat);
      ValidateDownload(req, split, toFloat, freshId).Ok? <==>
        && StripSpace(req.url) != "" && StripSpace(req.start) != "" && StripSpace(req.end) != ""
        && s.Ok? && e.Ok? && s.value < e.value
        && (UsesSeparateAudio(req, split) ==> as_.Ok? && ae.Ok? && as_.value < ae.value)
  {
    var r := ValidateDownload(req, split, toFloat, freshId);
    CleanFieldEmptyIff(req.url, split);
    if StripSpace(req.url) != "" && StripSpace(req.start) != "" && StripSpace(req.end) != "" {
      var w := Window(StripSpace(req.start), StripSpace(req.end), toFloat, EndNotAfterStart);
      if w.Ok? {
        if UsesSeparateAudio(req, split) {
          var a := Window(StripSpace(req.audioStart), StripSpace(req.audioEnd), toFloat, AudioEndNotAfterStart);
          assert r.Ok? <==> a.Ok?;
        } else {
          assert r.Ok?;
        }
      } else {
        assert r.Err?;
      }
    }
  }

  /** An end time at or before the start time is rejected, whatever the audio fields say. */
  lemma EndNotAfterStartRejected(req: DownloadRequest, split: string -> Option<UrlParts>,
                                 toFloat: string -> Option<real>, freshId: string)
    ensures var s := ParseTimestamp(StripSpace(req.start), toFloat);
      var e := ParseTimestamp(StripSpace(req.end), toFloat);
      StripSpace(req.url) != "" && StripSpace(req.start) != "" && StripSpace(req.end) != ""
      && s.Ok? && e.Ok? && e.value <= s.value ==>
        ValidateDownload(req, split, toFloat, freshId) == Err(EndNotAfterStart)
  {
  }

  /** Without separate audio, the audio times are never parsed: changing them does
      not change the outcome. */
  lemma AudioTimesIgnoredUnlessSeparate(req: DownloadRequest, split: string -> Option<UrlParts>,
                                        toFloat: string -> Option<real>, freshId: string, audioStart: string, audioEnd: string)
    ensures var other := req.(audioStart := audioStart, audioEnd := audioEnd);
      !UsesSeparateAudio(req, split) && !UsesSeparateAudio(other, split) ==>
        ValidateDownload(other, split, toFloat, freshId) == ValidateDownload(req, split, toFloat, freshId)
  {
  }
}

=== FILE: ffmpeg_errors.dfy ===
/** How `run_ffmpeg` turns a failing ffmpeg run's standard error into the message of
    the exception it raises. */
module FfmpegErrors {
  import opened Text

  /** The words that mark a line of standard error as a diagnostic worth reporting. */
  const Keywords: seq<string> := ["error", "invalid", "no such", "fail", "cannot", "not found"]

  const FailurePrefix := "ffmpeg error: "

  const UnknownError := "Unknown error"

  /** A line is a diagnostic when its lower-case form contains one of the keywords. */
  predicate IsDiagnostic(line: string) {
    exists i :: 0 <= i < |Keywords| && Contains(Lower(line), Keywords[i])
  }

  /** The diagnostic lines, in their original order. */
  function Diagnostics(lines: seq<string>): (picked: seq<string>)
    ensures |picked| <= |lines|
    ensures forall l :: l in picked <==> l in lines && IsDiagnostic(l)
    decreases |lines|
  {
    if |lines| == 0 then []
    else
      var last := lines[|lines| - 1];
      assert lines == lines[..|lines| - 1] + [last];
      Diagnostics(lines[..|lines| - 1]) + (if IsDiagnostic(last) then [last] else [])
  }

  /** Filtering distributes over concatenation, so order is kept. */
  lemma {:induction false} DiagnosticsAppend(front: seq<string>, back: seq<string>)
    ensures Diagnostics(front + back) == Diagnostics(front) + Diagnostics(back)
    decreases |back|
  {
    if |back| == 0 {
      assert front + back == front;
    } else {
      var n := |back| - 1;
      assert (front + back)[..|front + back| - 1] == front + back[..n];
      DiagnosticsAppend(front, back[..n]);
    }
  }

  /** A diagnostic line is never empty, since every keyword is not. */
  lemma DiagnosticNonEmpty(line: string)
    requires IsDiagnostic(line)
    ensures line != ""
  {
    if line == "" {
      EmptyLineNotDiagnostic(line);
    }
  }

  /** An empty line contains no keyword. */
  lemma EmptyLineNotDiagnostic(line: string)
    requires line == ""
    ensures !IsDiagnostic(line)
  {
    forall i | 0 <= i < |Keywords| ensures !Contains(Lower(line), Keywords[i]) {
      NotContainsLonger(Lower(line), Keywords[i]);
    }
  }

  /** The lines of the stripped standard error. */
  function StderrLines(stderr: string): (lines: seq<string>)
    ensures |lines| >= 1
  {
    Split(StripSpace(stderr), '\n')
  }

  /** The detail `run_ffmpeg` reports as written: the diagnostic lines joined by
      newlines, else the last line. Splitting always yields a line, so the
      `"Unknown error"` branch is never taken. */
  function ErrorDetailAsWritten(stderr: string): (detail: string)
    ensures StripSpace(stderr) != "" ==> detail != ""
  {
    var lines := StderrLines(stderr);
    var picked := Diagnostics(lines);
    DetailCandidatesNonEmpty(stderr);
    if picked != [] then Join(picked, '\n')
    else if |lines| > 0 then lines[|lines| - 1]
    else UnknownError
  }

  /** As written, a failure with blank standard error is reported with an empty
      detail, not `"Unknown error"`. */
  lemma BlankStderrAsWritten(stderr: string)
    requires StripSpace(stderr) == ""
    ensures ErrorDetailAsWritten(stderr) == ""
  {
    var lines := StderrLines(stderr);
    SplitWord(StripSpace(stderr), '\n');
    assert lines == [StripSpace(stderr)];
    EmptyLineNotDiagnostic(lines[0]);
    assert lines[..0] == [];
    assert Diagnostics(lines) == [];
  }

  /** The detail as intended: `"Unknown error"` when standard error is blank,
      otherwise as written. */
  function ErrorDetail(stderr: string): (detail: string)
    ensures StripSpace(stderr) == "" ==> detail == UnknownError
    ensures detail != ""
  {
    if StripSpace(stderr) == "" then UnknownError
    else
      ErrorDetailAsWritten(stderr)
  }

  /** Neither candidate for the detail is empty: diagnostic lines are never blank,
      and with something on standard error its last line is not blank either. */
  lemma DetailCandidatesNonEmpty(stderr: string)
    ensures var picked := Diagnostics(StderrLines(stderr));
      picked != [] ==> Join(picked, '\n') != ""
    ensures var lines := StderrLines(stderr);
      StripSpace(stderr) != "" ==> lines[|lines| - 1] != ""
  {
    var lines := StderrLines(stderr);
    var picked := Diagnostics(lines);
    if picked != [] {
      assert picked[0] in picked;
      DiagnosticNonEmpty(picked[0]);
      assert Join(picked, '\n')[..|picked[0]|] == picked[0];
    }
    if StripSpace(stderr) != "" {
      StripEndsUnstripped(stderr, IsSpace);
      LastPieceNonEmpty(StripSpace(stderr), '\n');
    }
  }

  /** When some lines are diagnostics, the detail is exactly those lines: splitting
      it on newlines gives them back, in order. */
  lemma DiagnosticsReported(stderr: string)
    requires Diagnostics(StderrLines(stderr)) != []
    ensures Split(ErrorDetail(stderr), '\n') == Diagnostics(StderrLines(stderr))
  {
    var lines := StderrLines(stderr);
    var picked := Diagnostics(lines);
    if StripSpace(stderr) == "" {
      SplitWord("", '\n');
      assert lines == [""];
      assert picked[0] in lines;
      DiagnosticNonEmpty(picked[0]);
    }
    forall i | 0 <= i < |picked| ensures '\n' !in picked[i] {
      assert picked[i] in picked;
    }
    SplitJoin(picked, '\n');
  }

  /** Without a diagnostic line, the detail is the last non-blank line of standard
      error: a non-empty line that ends the stripped text and either is all of it or
      follows a newline, so it is the whole last line and not a fragment of it. */
  lemma FallbackIsLastLine(stderr: string)
    requires StripSpace(stderr) != ""
    requires Diagnostics(StderrLines(stderr)) == []
    ensures var detail := ErrorDetail(stderr); var s := StripSpace(stderr);
      && detail != "" && '\n' !in detail
      && |detail| <= |s| && s[|s| - |detail|..] == detail
      && (|detail| == |s| || s[|s| - |detail| - 1] == '\n')
  {
    var s := StripSpace(stderr);
    var lines := StderrLines(stderr);
    var last := lines[|lines| - 1];
    assert ErrorDetail(stderr) == last;
    JoinSplit(s, '\n');
    JoinEndsWith(lines, '\n');
    if |lines| >= 2 {
      JoinSepBeforeLast(lines, '\n');
    }
  }

  /** The diagnostic filter, one line at a time, as `run_ffmpeg` writes it. */
  method ExtractErrorDetail(stderr: string) returns (detail: string)
    ensures detail == ErrorDetail(stderr)
  {
    if StripSpace(stderr) == "" {
      return UnknownError;
    }
    var lines := StderrLines(stderr);
    var picked := PickDiagnostics(lines);
    if picked != [] {
      detail := Join(picked, '\n');
    } else {
      detail := lines[|lines| - 1];
    }
  }

  /** The loop over the lines of standard error that keeps the diagnostic ones. */
  method PickDiagnostics(lines: seq<string>) returns (picked: seq<string>)
    ensures picked == Diagnostics(lines)
  {
    picked := [];
    var i := 0;
    while i < |lines|
      invariant 0 <= i <= |lines|
      invariant picked == Diagnostics(lines[..i])
    {
      DiagnosticsStep(lines, i);
      var isDiagnostic := IsDiagnosticLine(lines[i]);
      if isDiagnostic {
        picked := picked + [lines[i]];
      }
      i := i + 1;
    }
    assert lines[..|lines|] == lines;
  }

  /** One more line considered adds that line exactly when it is a diagnostic. */
  lemma DiagnosticsStep(lines: seq<string>, i: nat)
    requires i < |lines|
    ensures Diagnostics(lines[..i + 1])
         == Diagnostics(lines[..i]) + (if IsDiagnostic(lines[i]) then [lines[i]] else [])
  {
    assert lines[..i + 1][..i] == lines[..i];
  }

  /** The keyword test written as a loop over the keywords. */
  method IsDiagnosticLine(line: string) returns (b: bool)
    ensures b <==> IsDiagnostic(line)
  {
    var lowered := Lower(line);
    var k := 0;
    while k < |Keywords|
      invariant 0 <= k <= |Keywords|
      invariant forall j :: 0 <= j < k ==> !Contains(lowered, Keywords[j])
    {
      if Contains(lowered, Keywords[k]) {
        return true;
      }
      k := k + 1;
    }
    return false;
  }

  /** The message of the exception raised for a failed run. */
  function FailureMessage(stderr: string): (message: string)
    ensures StartsWith(message, FailurePrefix)
    ensures |message| > |FailurePrefix|
  {
    FailurePrefix + ErrorDetail(stderr)
  }

  /** The message as written: with blank standard error (as `ffprobe -v quiet`
      leaves it) it is the bare prefix; otherwise it is the intended message. */
  function FailureMessageAsWritten(stderr: string): (message: string)
    ensures StartsWith(message, FailurePrefix)
    ensures StripSpace(stderr) == "" ==> message == FailurePrefix
    ensures StripSpace(stderr) != "" ==> message == FailureMessage(stderr)
  {
    var message := FailurePrefix + ErrorDetailAsWritten(stderr);
    if StripSpace(stderr) == "" then
      BlankStderrAsWritten(stderr);
      message
    else message
  }
}

=== FILE: geometry.dfy ===
/** The frame arithmetic of `run_processing_pipeline`: the output size derived from
    the crop's aspect ratio, and the crop rectangle clamped to the source frame. */
module Geometry {

  /** A crop rectangle in source pixels: top-left corner, width and height. */
  datatype Rect = Rect(x: int, y: int, w: int, h: int)

  /** The rectangle lies inside a `srcW` by `srcH` frame. */
  predicate Inside(r: Rect, srcW: int, srcH: int) {
    0 <= r.x && r.x + r.w <= srcW && 0 <= r.y && r.y + r.h <= srcH
  }

  function Min(a: int, b: int): int { if a <= b then a else b }

  function Max(a: int, b: int): int { if a >= b then a else b }

  /** The clamp applied before the crop filter is built: the size is cut to the
      frame, then the corner is pulled back so the rectangle fits, but never
      above or left of the origin. */
  function ClampCrop(r: Rect, srcW: int, srcH: int): (c: Rect)
    ensures Inside(c, srcW, srcH)
    ensures c.w == Min(r.w, srcW) && c.h == Min(r.h, srcH)
  {
    var w := Min(r.w, srcW);
    var h := Min(r.h, srcH);
    Rect(Max(0, Min(r.x, srcW - w)), Max(0, Min(r.y, srcH - h)), w, h)
  }

  /** The clamp leaves a rectangle alone exactly when it already fits. */
  lemma ClampFixesExactlyInside(r: Rect, srcW: int, srcH: int)
    ensures ClampCrop(r, srcW, srcH) == r <==> Inside(r, srcW, srcH)
  {
  }

  /** Clamping twice is clamping once. */
  lemma ClampIdempotent(r: Rect, srcW: int, srcH: int)
    ensures ClampCrop(ClampCrop(r, srcW, srcH), srcW, srcH) == ClampCrop(r, srcW, srcH)
  {
    ClampFixesExactlyInside(ClampCrop(r, srcW, srcH), srcW, srcH);
  }

  /** A rectangle that fits in width keeps its horizontal position and size, and
      one that fits in height keeps its vertical ones. */
  lemma ClampKeepsFittingAxis(r: Rect, srcW: int, srcH: int)
    ensures 0 <= r.x && r.x + r.w <= srcW ==>
      ClampCrop(r, srcW, srcH).x == r.x && ClampCrop(r, srcW, srcH).w == r.w
    ensures 0 <= r.y && r.y + r.h <= srcH ==>
      ClampCrop(r, srcW, srcH).y == r.y && ClampCrop(r, srcW, srcH).h == r.h
  {
  }

  /** Python's `int()` on a number: truncation toward zero. */
  function Trunc(v: real): (n: int)
    ensures v >= 0.0 ==> n as real <= v < n as real + 1.0
    ensures v < 0.0 ==> n as real - 1.0 < v <= n as real
  {
    if v >= 0.0 then v.Floor else -((-v).Floor)
  }

  /** The crop's aspect ratio, `1.0` unless both sides are non-zero. */
  function CropAspect(cropW: int, cropH: int): (a: real)
    ensures cropW == 0 || cropH == 0 ==> a == 1.0
    ensures cropW != 0 && cropH != 0 ==> a * cropH as real == cropW as real
  {
    if cropW != 0 && cropH != 0 then cropW as real / cropH as real else 1.0
  }

  /** The output frame: `resolution` is the width of a wide or square crop and the
      height of a tall one; the other side keeps the aspect ratio, truncated. */
  function OutputDims(cropW: int, cropH: int, resolution: int): (d: (int, int))
    ensures CropAspect(cropW, cropH) >= 1.0 ==> d.0 == resolution
    ensures CropAspect(cropW, cropH) < 1.0 ==> d.1 == resolution
  {
    var aspect := CropAspect(cropW, cropH);
    if aspect >= 1.0 then (resolution, Trunc(resolution as real / aspect))
    else (Trunc(resolution as real * aspect), resolution)
  }

  /** A crop with a zero side gives a square `resolution` by `resolution` frame. */
  lemma ZeroSideGivesSquare(cropW: int, cropH: int, resolution: int)
    requires cropW == 0 || cropH == 0
    ensures OutputDims(cropW, cropH, resolution) == (resolution, resolution)
  {
  }

  /** A wide or square crop is `resolution` wide and at most that tall. */
  lemma WideCropBounds(cropW: int, cropH: int, resolution: int)
    requires CropAspect(cropW, cropH) >= 1.0 && resolution >= 0
    ensures var d := OutputDims(cropW, cropH, resolution);
      d.0 == resolution && 0 <= d.1 <= resolution
  {
    var aspect := CropAspect(cropW, cropH);
    WideDims(cropW, cropH, resolution);
    DivideByAtLeastOne(resolution as real, aspect);
  }

  /** A tall crop is `resolution` high and at most that wide. */
  lemma TallCropBounds(cropW: int, cropH: int, resolution: int)
    requires CropAspect(cropW, cropH) < 1.0 && resolution >= 0
    ensures var d := OutputDims(cropW, cropH, resolution);
      d.1 == resolution && d.0 <= resolution
    ensures cropW > 0 && cropH > 0 ==> 0 <= OutputDims(cropW, cropH, resolution).0
  {
    TallDims(cropW, cropH, resolution);
    ScaledWidthBounds(resolution, CropAspect(cropW, cropH));
    if cropW > 0 && cropH > 0 {
      PositiveAspect(cropW, cropH);
    }
  }

  /** `int(resolution * aspect)` for an aspect below 1 is at most the resolution,
      and not negative when the aspect is positive. */
  lemma ScaledWidthBounds(resolution: int, aspect: real)
    requires resolution >= 0 && aspect < 1.0
    ensures Trunc(resolution as real * aspect) <= resolution
    ensures aspect > 0.0 ==> Trunc(resolution as real * aspect) >= 0
  {
    var v := resolution as real * aspect;
    MultiplyByBelowOne(resolution as real, aspect);
    TruncAtMost(v, resolution);
    if aspect > 0.0 {
      MultiplyNonNegative(resolution as real, aspect);
      TruncNonNegative(v);
    }
  }

  /** Truncating a value no larger than an integer gives at most that integer. */
  lemma TruncAtMost(v: real, n: int)
    requires v <= n as real
    ensures Trunc(v) <= n
  {
  }

  /** Truncating a non-negative value gives a non-negative integer. */
  lemma TruncNonNegative(v: real)
    requires v >= 0.0
    ensures Trunc(v) >= 0
  {
  }

  lemma DivideByAtLeastOne(r: real, a: real)
    requires r >= 0.0 && a >= 1.0
    ensures 0.0 <= r / a <= r
  {
    var q := r / a;
    assert q * a == r;
  }

  lemma MultiplyByBelowOne(r: real, a: real)
    requires r >= 0.0 && a < 1.0
    ensures r * a <= r
  {
  }

  lemma MultiplyNonNegative(r: real, a: real)
    requires r >= 0.0 && a > 0.0
    ensures r * a >= 0.0
  {
  }

  lemma PositiveAspect(cropW: int, cropH: int)
    requires cropW > 0 && cropH > 0
    ensures CropAspect(cropW, cropH) > 0.0
  {
  }

  /** For a wide or square crop with positive sides and a non-negative resolution,
      the height is the integer quotient `resolution * cropH / cropW`. */
  lemma WideHeightIsQuotient(cropW: int, cropH: int, resolution: int)
    requires cropW >= cropH > 0 && resolution >= 0
    ensures OutputDims(cropW, cropH, resolution).0 == resolution
    ensures OutputDims(cropW, cropH, resolution).1 == resolution * cropH / cropW
  {
    AspectOfPositiveCrop(cropW, cropH);
    TruncDividedByRatio(resolution, cropW, cropH, CropAspect(cropW, cropH));
    WideDims(cropW, cropH, resolution);
  }

  /** For a tall crop with positive sides and a non-negative resolution, the width
      is the integer quotient `resolution * cropW / cropH`. */
  lemma TallWidthIsQuotient(cropW: int, cropH: int, resolution: int)
    requires 0 < cropW < cropH && resolution >= 0
    ensures OutputDims(cropW, cropH, resolution).0 == resolution * cropW / cropH
    ensures OutputDims(cropW, cropH, resolution).1 == resolution
  {
    AspectOfPositiveCrop(cropW, cropH);
    var aspect := CropAspect(cropW, cropH);
    assert aspect < 1.0;
    TallDims(cropW, cropH, resolution);
    TruncScaledByRatio(resolution, cropW, cropH, aspect);
  }

  /** A crop with positive sides is wide or square exactly when it is at least as
      wide as it is tall. */
  lemma AspectOfPositiveCrop(cropW: int, cropH: int)
    requires cropW > 0 && cropH > 0
    ensures CropAspect(cropW, cropH) >= 1.0 <==> cropW >= cropH
  {
    var aspect := CropAspect(cropW, cropH);
    assert aspect * cropH as real == cropW as real;
    if aspect >= 1.0 {
      assert aspect * cropH as real >= cropH as real;
    } else {
      assert aspect * cropH as real < cropH as real;
    }
  }

  /** `int(r * (num / den))` is `r * num // den` for non-negative operands. */
  lemma TruncScaledByRatio(r: int, num: int, den: int, ratio: real)
    requires r >= 0 && num >= 0 && den > 0 && ratio * den as real == num as real
    ensures Trunc(r as real * ratio) == r * num / den
  {
    CastProduct(r, num);
    ScaleByRatio(r as real, ratio, num as real, den as real);
    FloorOfQuotient(r * num, den);
  }

  /** `int(r / (num / den))` is `r * den // num` for non-negative operands. */
  lemma TruncDividedByRatio(r: int, num: int, den: int, ratio: real)
    requires r >= 0 && num > 0 && den > 0 && ratio * den as real == num as real
    ensures Trunc(r as real / ratio) == r * den / num
  {
    CastProduct(r, den);
    DivideByRatio(r as real, ratio, num as real, den as real);
    FloorOfQuotient(r * den, num);
  }

  /** Dividing by a ratio `w / h` is multiplying by `h` and dividing by `w`. */
  lemma DivideByRatio(r: real, ratio: real, w: real, h: real)
    requires h > 0.0 && w > 0.0 && ratio * h == w
    ensures r / ratio == (r * h) / w
  {
    assert ratio != 0.0;
    var q := r / ratio;
    assert q * ratio == r;
    assert q * w == (q * ratio) * h;
  }

  /** The two branches of `OutputDims`, one lemma each so that proofs about the
      arithmetic need not unfold it. */
  lemma WideDims(cropW: int, cropH: int, resolution: int)
    requires CropAspect(cropW, cropH) >= 1.0
    ensures OutputDims(cropW, cropH, resolution)
      == (resolution, Trunc(resolution as real / CropAspect(cropW, cropH)))
  {
  }

  lemma TallDims(cropW: int, cropH: int, resolution: int)
    requires CropAspect(cropW, cropH) < 1.0
    ensures OutputDims(cropW, cropH, resolution)
      == (Trunc(resolution as real * CropAspect(cropW, cropH)), resolution)
  {
  }

  /** Multiplying by a ratio `w / h` is multiplying by `w` and dividing by `h`. */
  lemma ScaleByRatio(r: real, ratio: real, w: real, h: real)
    requires h > 0.0 && ratio * h == w
    ensures r * ratio == (r * w) / h
  {
    assert (r * ratio) * h == r * (ratio * h);
  }

  /** The floor of an exact quotient is integer division. */
  lemma FloorOfQuotient(a: int, b: int)
    requires a >= 0 && b > 0
    ensures Trunc(a as real / b as real) == a / b
  {
    var q := a / b;
    var m := a % b;
    var br := b as real;
    var v := a as real / br;
    assert a == q * b + m;
    CastProduct(q, b);
    QuotientInUnitStep(v, q as real, br, m as real);
    var n := Trunc(v);
    assert n as real <= v < n as real + 1.0;
  }

  /** If `v * b = q * b + m` with `0 <= m < b`, then `q <= v < q + 1`. */
  lemma QuotientInUnitStep(v: real, q: real, b: real, m: real)
    requires b > 0.0 && 0.0 <= m < b
    requires v * b == q * b + m
    ensures q <= v < q + 1.0
  {
    var t := v - q;
    assert t * b == v * b - q * b;
    assert t * b == m;
    UnitInterval(t, b);
  }

  /** Casting to `real` commutes with multiplication. */
  lemma CastProduct(x: int, y: int)
    ensures (x * y) as real == x as real * y as real
  {
  }

  /** A number whose multiple by a positive `b` lies in `[0, b)` lies in `[0, 1)`. */
  lemma UnitInterval(t: real, b: real)
    requires b > 0.0
    requires 0.0 <= t * b
    requires t * b < b
    ensures 0.0 <= t < 1.0
  {
  }
}

=== FILE: job_ids.dfy ===
/** The job-id guard (`is_safe_job_id`) that protects every path built from a job id,
    and the ids the application mints with `uuid4().hex[:8]`. */
module JobIds {

  /** The regular-expression class `[a-zA-Z0-9_\-]`. */
  predicate IsIdChar(c: char) {
    'a' <= c <= 'z' || 'A' <= c <= 'Z' || '0' <= c <= '9' || c == '_' || c == '-'
  }

  /** A safe job id: non-empty, and made only of letters, digits, `_` and `-`. */
  predicate IsSafeJobId(id: string) {
    |id| > 0 && forall i :: 0 <= i < |id| ==> IsIdChar(id[i])
  }

  /** What `re.match(r'^[a-zA-Z0-9_\-]+$', id)` accepts. Python's `$` matches at the
      end of the text and also just before a newline that ends it, so one trailing
      newline slips through. */
  predicate IsSafeJobIdAsWritten(id: string): (ok: bool)
    ensures ok ==> |id| > 0 && '/' !in id && '\\' !in id && '.' !in id
    ensures ok && '\n' in id ==> id[|id| - 1] == '\n' && '\n' !in id[..|id| - 1]
  {
    IsSafeJobId(id) || (|id| >= 2 && id[|id| - 1] == '\n' && IsSafeJobId(id[..|id| - 1]))
  }

  /** The regular-expression guard admits an id with a trailing newline, which the
      guard's own description excludes. */
  lemma AsWrittenAcceptsTrailingNewline()
    ensures IsSafeJobIdAsWritten("a\n") && !IsSafeJobId("a\n")
  {
    assert "a\n"[..1] == "a";
    assert "a\n"[1] == '\n';
  }

  /** Apart from that one case the two guards agree, and the intended one is stricter. */
  lemma AsWrittenAgreesOtherwise(id: string)
    ensures IsSafeJobId(id) ==> IsSafeJobIdAsWritten(id)
    ensures (|id| == 0 || id[|id| - 1] != '\n') ==> (IsSafeJobIdAsWritten(id) <==> IsSafeJobId(id))
  {
  }

  /** Scans the id once, as the anchored match does, and decides the intended guard. */
  method CheckJobId(id: string) returns (ok: bool)
    ensures ok <==> IsSafeJobId(id)
  {
    if |id| == 0 {
      return false;
    }
    var i := 0;
    while i < |id|
      invariant 0 <= i <= |id|
      invariant forall k :: 0 <= k < i ==> IsIdChar(id[k])
    {
      if !IsIdChar(id[i]) {
        return false;
      }
      i := i + 1;
    }
    return true;
  }

  /** A safe id names a single directory entry below the jobs root: it has no path
      separator, no dot (so neither `.` nor `..`), and no line break. */
  lemma SafeIdHasNoPathSyntax(id: string)
    requires IsSafeJobId(id)
    ensures '/' !in id && '\\' !in id && '.' !in id && '\n' !in id
  {
  }

  /** A lower-case hexadecimal digit, as `uuid.hex` produces. */
  predicate IsLowerHex(c: char) {
    '0' <= c <= '9' || 'a' <= c <= 'f'
  }

  /** The ids minted by `uuid.uuid4().hex[:8]`. */
  predicate IsMintedId(id: string) {
    |id| == 8 && forall i :: 0 <= i < |id| ==> IsLowerHex(id[i])
  }

  /** Every minted id passes the guard, so jobs created by download or upload
      can always be addressed afterwards. */
  lemma MintedIdIsSafe(id: string)
    requires IsMintedId(id)
    ensures IsSafeJobId(id) && IsSafeJobIdAsWritten(id)
  {
    forall i | 0 <= i < |id|
      ensures IsIdChar(id[i])
    {
      assert IsLowerHex(id[i]);
    }
  }
}

=== FILE: jobs.dfy ===
/** The values stored in the process-wide `jobs` dictionary, and the dictionary
    itself as an immutable map from job id to record. */
module Jobs {
  import opened Wrappers

  datatype Status = Downloading | Uploading | Downloaded | Processing | Complete | Error

  /** One value of `jobs[job_id]`; each alternative is one dictionary shape the
      application writes. */
  datatype JobRecord =
      /** `{"status", "progress", "stage"}` while a download, upload or processing run is under way */
    | Working(status: Status, progress: nat, stage: string)
      /** `{"status": "downloaded", "filename", ...}` once the source clip is on disk */
    | Fetched(filename: string, audioFilename: Option<string>)
      /** `{"status": "complete", "progress": 100, "stage": "Done!", "filename"}` */
    | Finished(filename: string)
      /** `{"status": "error", "error"}` */
    | Failed(error: string)
  {
    function StatusOf(): Status {
      match this
      case Working(s, _, _) => s
      case Fetched(_, _) => Downloaded
      case Finished(_) => Complete
      case Failed(_) => Error
    }

    /** The `progress` field, which only in-flight and completed records carry. */
    function ProgressOf(): Option<nat> {
      match this
      case Working(_, p, _) => Some(p)
      case Finished(_) => Some(100)
      case _ => None
    }
  }

  type Registry = map<string, JobRecord>
}

=== FILE: pipeline.dfy ===
/** The planning side of `run_processing_pipeline` and `process_video`: which trim
    flags and inputs the ffmpeg commands get, the order of the external-tool steps
    with the job records written between them, and how the steps' outcomes decide
    the records the job ends with. The tools themselves are opaque steps. */
module Pipeline {
  import opened Wrappers
  import opened Jobs
  import opened JobIds
  import opened FfmpegErrors
  import opened Text

  // ---------------------------------------------------------------- trim flags

  /** The trim flags of one input: `-ss start` before it and `-t length` after. */
  datatype TrimFlags = TrimFlags(seek: Option<real>, length: Option<real>)

  /** `-ss` is emitted only for a positive start, and `-t end - start` only for a
      positive end after the start. */
  function TrimFlagsOf(trimStart: real, trimEnd: real): (f: TrimFlags)
    ensures f.seek.Some? <==> trimStart > 0.0
    ensures f.length.Some? <==> trimEnd > 0.0 && trimEnd > trimStart
  {
    TrimFlags(if trimStart > 0.0 then Some(trimStart) else None,
              if trimEnd > 0.0 && trimEnd > trimStart then Some(trimEnd - trimStart) else None)
  }

  /** The stretch of the source an input with these flags reads: from the seek
      point (or the beginning) to the seek point plus the length (or the end). */
  function WindowOf(f: TrimFlags): (real, Option<real>) {
    var from := f.seek.GetOr(0.0);
    (from, if f.length.Some? then Some(from + f.length.value) else None)
  }

  /** For a non-negative start before a positive end, the input reads exactly
      from the start to the end. */
  lemma TrimSelectsWindow(trimStart: real, trimEnd: real)
    requires 0.0 <= trimStart < trimEnd
    ensures WindowOf(TrimFlagsOf(trimStart, trimEnd)) == (trimStart, Some(trimEnd))
  {
  }

  /** A negative start is not sought to, but the length is still measured from it:
      the input reads from the beginning for `end - start`, past the requested end. */
  lemma TrimNegativeStart(trimStart: real, trimEnd: real)
    requires trimStart < 0.0 < trimEnd
    ensures WindowOf(TrimFlagsOf(trimStart, trimEnd)) == (0.0, Some(trimEnd - trimStart))
  {
  }

  /** An end of zero, or one not after the start, reads to the end of the source. */
  lemma TrimOpenEnded(trimStart: real, trimEnd: real)
    requires trimEnd <= 0.0 || trimEnd <= trimStart
    ensures WindowOf(TrimFlagsOf(trimStart, trimEnd)).1 == None
    ensures WindowOf(TrimFlagsOf(trimStart, trimEnd)).0 == if trimStart > 0.0 then trimStart else 0.0
  {
  }

  // ----------------------------------------------------------- command inputs

  /** What an `-i` argument names. `NoPath` is Python's `None`, passed when
      separate audio is requested but no `audio.*` file was found. */
  datatype Source = VideoClip | AudioFile | StillImage | NoPath

  datatype Input = Input(source: Source, looped: bool, seek: Option<real>)

  /** The request's processing options. */
  datatype Settings = Settings(
    trimStart: real, trimEnd: real,
    useSeparateAudio: bool, useStaticImage: bool,
    bufferDuration: int, normalizeAudio: bool)

  /** Which optional files exist next to the clip in the job's directory. */
  datatype Media = Media(audioFound: bool, imageFound: bool)

  /** The inputs of the combined crop-and-extract command and the index of the
      one whose audio stream is used. */
  function CombinedInputs(s: Settings, m: Media): (r: (seq<Input>, nat))
    ensures r.1 < |r.0|
    ensures |r.0| == 1 <==> !s.useSeparateAudio && !s.useStaticImage
  {
    var seek := TrimFlagsOf(s.trimStart, s.trimEnd).seek;
    var first :=
      if s.useStaticImage && m.imageFound then Input(StillImage, true, None)
      else Input(VideoClip, false, seek);
    if s.useSeparateAudio then
      ([first, Input(if m.audioFound then AudioFile else NoPath, false, seek)], 1)
    else if s.useStaticImage then
      ([first, Input(VideoClip, false, seek)], 1)
    else
      ([first], 0)
  }

  /** The audio comes from the separate audio file when one is requested (and is
      `None` if it is missing), and from the video clip otherwise; it is always
      read from the trimmed start. */
  lemma AudioInputSource(s: Settings, m: Media)
    ensures var (inputs, k) := CombinedInputs(s, m);
      && inputs[k].source == (if !s.useSeparateAudio then VideoClip
                              else if m.audioFound then AudioFile else NoPath)
      && inputs[k].seek == TrimFlagsOf(s.trimStart, s.trimEnd).seek
      && !inputs[k].looped
  {
  }

  /** The still image replaces the video only when it was requested and found;
      it is looped and never seeked. */
  lemma VideoInputSource(s: Settings, m: Media)
    ensures var first := CombinedInputs(s, m).0[0];
      && (first.source == StillImage <==> s.useStaticImage && m.imageFound)
      && (first.source == StillImage ==> first.looped && first.seek == None)
      && (first.source != StillImage ==> first == Input(VideoClip, false, TrimFlagsOf(s.trimStart, s.trimEnd).seek))
  {
  }

  /** The loudness analysis reads the separate audio file when one was found and
      the clip otherwise, with the same trim flags as the combined pass. */
  function AnalysisInput(s: Settings, m: Media): (r: (Source, TrimFlags))
    ensures r.0 != NoPath
  {
    (if s.useSeparateAudio && m.audioFound then AudioFile else VideoClip,
     TrimFlagsOf(s.trimStart, s.trimEnd))
  }

  /** The analysis measures the audio the combined pass uses, except when
      separate audio was requested and is missing: then the analysis falls back
      to the clip while the combined pass is handed `None`. */
  lemma AnalysisMatchesCombinedAudio(s: Settings, m: Media)
    ensures var (inputs, k) := CombinedInputs(s, m);
      (AnalysisInput(s, m).0 == inputs[k].source <==> !(s.useSeparateAudio && !m.audioFound))
    ensures AnalysisInput(s, m).1.seek == CombinedInputs(s, m).0[CombinedInputs(s, m).1].seek
  {
    AudioInputSource(s, m);
  }

  /** Some input of the combined command is `None`. */
  predicate HasNoPath(inputs: seq<Input>) {
    exists i :: 0 <= i < |inputs| && inputs[i].source == NoPath
  }

  /** The combined command is handed `None` exactly when separate audio is
      requested but missing. */
  lemma NoPathIff(s: Settings, m: Media)
    ensures HasNoPath(CombinedInputs(s, m).0) <==> s.useSeparateAudio && !m.audioFound
  {
    var inputs := CombinedInputs(s, m).0;
    if s.useSeparateAudio && !m.audioFound {
      assert inputs[1].source == NoPath;
    }
  }

  // --------------------------------------------------------------- stage plan

  /** The external-tool invocations of the pipeline, in their source order. */
  datatype Step =
    | ProbeVideo | ProbeAudio | MeasureLoudness | CropAndExtract
    | GrabLastFrame | RenderStillBuffer | JoinClips | FinalEncode

  function StepRank(step: Step): nat {
    match step
    case ProbeVideo => 0
    case ProbeAudio => 1
    case MeasureLoudness => 2
    case CropAndExtract => 3
    case GrabLastFrame => 4
    case RenderStillBuffer => 5
    case JoinClips => 6
    case FinalEncode => 7
  }

  datatype AudioCodec = Pcm | Aac

  /** The audio codec a step's output is written with (`-c:a`), if it writes any. */
  function AudioCodecOf(step: Step): Option<AudioCodec> {
    match step
    case CropAndExtract => Some(Pcm)
    case RenderStillBuffer => Some(Pcm)
    case JoinClips => Some(Pcm)
    case FinalEncode => Some(Aac)
    case _ => None
  }

  /** One item of the plan: a write of the job record, or a tool invocation. */
  datatype Event = Mark(record: JobRecord) | Invoke(step: Step)

  const StartingRecord: JobRecord := Working(Processing, 0, "Starting...")
  const AnalyzingRecord: JobRecord := Working(Processing, 15, "Analyzing audio levels...")
  const CombiningRecord: JobRecord := Working(Processing, 40, "Processing video and audio...")
  const BufferingRecord: JobRecord := Working(Processing, 65, "Creating end buffer...")
  const JoiningRecord: JobRecord := Working(Processing, 75, "Joining clips...")
  const EncodingRecord: JobRecord := Working(Processing, 90, "Final encoding...")

  function OutputName(jobId: string): string {
    "alert_" + jobId + ".mp4"
  }

  /** The plan up to the final encode, one segment per stage of the source. */
  function PlanBody(s: Settings, m: Media): seq<Event> {
    ProbeSegment(s, m) + LoudnessSegment(s) + CombinedSegment() + BufferSegment(s) + EncodeSegment()
  }

  /** The probes: the clip's, and the audio file's when one is used. */
  function ProbeSegment(s: Settings, m: Media): seq<Event> {
    if s.useSeparateAudio && m.audioFound then [Invoke(ProbeVideo), Invoke(ProbeAudio)]
    else [Invoke(ProbeVideo)]
  }

  function LoudnessSegment(s: Settings): seq<Event> {
    if s.normalizeAudio then [Mark(AnalyzingRecord), Invoke(MeasureLoudness)] else []
  }

  function CombinedSegment(): seq<Event> {
    [Mark(CombiningRecord), Invoke(CropAndExtract)]
  }

  function BufferSegment(s: Settings): seq<Event> {
    if s.bufferDuration > 0 then
      [Mark(BufferingRecord), Invoke(GrabLastFrame), Invoke(RenderStillBuffer),
       Mark(JoiningRecord), Invoke(JoinClips)]
    else []
  }

  function EncodeSegment(): seq<Event> {
    [Mark(EncodingRecord), Invoke(FinalEncode)]
  }

  /** The whole plan of a run whose clip was found. */
  function StagePlan(jobId: string, s: Settings, m: Media): (plan: seq<Event>)
    ensures |plan| > 0 && plan[|plan| - 1] == Mark(Finished(OutputName(jobId)))
    ensures forall i :: 0 <= i < |plan| - 1 && plan[i].Mark? ==> plan[i].record.Working?
  {
    PlanBodyMarksProcessing(s, m);
    PlanBody(s, m) + [Mark(Finished(OutputName(jobId)))]
  }

  /** The tool invocations of a list of events, in order. */
  function Steps(events: seq<Event>): seq<Step>
    decreases |events|
  {
    if |events| == 0 then []
    else (if events[0].Invoke? then [events[0].step] else []) + Steps(events[1..])
  }

  /** The record writes of a list of events, in order. */
  function Marks(events: seq<Event>): seq<JobRecord>
    decreases |events|
  {
    if |events| == 0 then []
    else (if events[0].Mark? then [events[0].record] else []) + Marks(events[1..])
  }

  lemma {:induction false} StepsAppend(a: seq<Event>, b: seq<Event>)
    ensures Steps(a + b) == Steps(a) + Steps(b)
    decreases |a|
  {
    if |a| > 0 {
      assert (a + b)[1..] == a[1..] + b;
      StepsAppend(a[1..], b);
    } else {
      assert a + b == b;
    }
  }

  lemma {:induction false} MarksAppend(a: seq<Event>, b: seq<Event>)
    ensures Marks(a + b) == Marks(a) + Marks(b)
    decreases |a|
  {
    if |a| > 0 {
      assert (a + b)[1..] == a[1..] + b;
      MarksAppend(a[1..], b);
    } else {
      assert a + b == b;
    }
  }

  /** The order the steps run in: probe; the audio probe iff a separate audio file
      is used; loudness analysis iff normalising; the combined pass; last frame,
      still buffer and join iff there is an end buffer; the final encode. */
  function ExpectedSteps(s: Settings, m: Media): seq<Step> {
    (if s.useSeparateAudio && m.audioFound then [ProbeVideo, ProbeAudio] else [ProbeVideo])
    + (if s.normalizeAudio then [MeasureLoudness] else [])
    + [CropAndExtract]
    + (if s.bufferDuration > 0 then [GrabLastFrame, RenderStillBuffer, JoinClips] else [])
    + [FinalEncode]
  }

  lemma PlanSteps(jobId: string, s: Settings, m: Media)
    ensures Steps(StagePlan(jobId, s, m)) == ExpectedSteps(s, m)
  {
    var fin: seq<Event> := [Mark(Finished(OutputName(jobId)))];
    StepsThroughEncode(s, m);
    StepsAppend(PlanBody(s, m), fin);
    MarksHead(fin[0], []);
    assert Steps(fin) == [];
    DropEmptyRight(Steps(PlanBody(s, m)), Steps(fin));
  }

  lemma StepsThroughCombined(s: Settings, m: Media)
    ensures Steps(ProbeSegment(s, m) + LoudnessSegment(s) + CombinedSegment())
         == Steps(ProbeSegment(s, m)) + Steps(LoudnessSegment(s)) + [CropAndExtract]
  {
    StepsAppend(ProbeSegment(s, m) + LoudnessSegment(s), CombinedSegment());
    StepsAppend(ProbeSegment(s, m), LoudnessSegment(s));
    FixedSegmentSteps();
  }

  lemma StepsThroughEncode(s: Settings, m: Media)
    ensures Steps(PlanBody(s, m)) == ExpectedSteps(s, m)
  {
    var front := ProbeSegment(s, m) + LoudnessSegment(s) + CombinedSegment();
    StepsThroughCombined(s, m);
    StepsAppend(front + BufferSegment(s), EncodeSegment());
    StepsAppend(front, BufferSegment(s));
    ProbeSegmentSteps(s, m);
    LoudnessSegmentSteps(s);
    FixedSegmentSteps();
    BufferSegmentSteps(s);
  }

  lemma ProbeSegmentSteps(s: Settings, m: Media)
    ensures Steps(ProbeSegment(s, m)) == if s.useSeparateAudio && m.audioFound then [ProbeVideo, ProbeAudio] else [ProbeVideo]
  {
    var probe := ProbeSegment(s, m);
    if |probe| == 2 {
      assert Steps(probe[1..]) == [ProbeAudio];
    }
  }

  lemma LoudnessSegmentSteps(s: Settings)
    ensures Steps(LoudnessSegment(s)) == if s.normalizeAudio then [MeasureLoudness] else []
  {
    var loud := LoudnessSegment(s);
    if loud != [] {
      assert Steps(loud[1..]) == [MeasureLoudness];
    }
  }

  lemma FixedSegmentSteps()
    ensures Steps(CombinedSegment()) == [CropAndExtract]
    ensures Steps(EncodeSegment()) == [FinalEncode]
  {
    assert Steps(CombinedSegment()[1..]) == [CropAndExtract];
    assert Steps(EncodeSegment()[1..]) == [FinalEncode];
  }

  lemma BufferSegmentSteps(s: Settings)
    ensures Steps(BufferSegment(s)) == if s.bufferDuration > 0 then [GrabLastFrame, RenderStillBuffer, JoinClips] else []
  {
    var buf := BufferSegment(s);
    if buf != [] {
      assert Steps(buf[4..]) == [JoinClips];
      assert Steps(buf[3..]) == [JoinClips];
      assert Steps(buf[2..]) == [RenderStillBuffer, JoinClips];
      assert Steps(buf[1..]) == [GrabLastFrame, RenderStillBuffer, JoinClips];
    }
  }

  lemma DropEmptyRight<T>(a: seq<T>, b: seq<T>)
    requires b == []
    ensures a + b == a
  {
  }

  /** The steps run in strictly increasing source order, so none repeats. */
  predicate Ordered(steps: seq<Step>) {
    forall i, j :: 0 <= i < j < |steps| ==> StepRank(steps[i]) < StepRank(steps[j])
  }

  lemma ExpectedStepsOrdered(s: Settings, m: Media)
    ensures Ordered(ExpectedSteps(s, m))
  {
  }

  lemma PlanStepsOrdered(jobId: string, s: Settings, m: Media)
    ensures Ordered(Steps(StagePlan(jobId, s, m)))
  {
    PlanSteps(jobId, s, m);
    ExpectedStepsOrdered(s, m);
  }

  /** Each optional step runs exactly when its setting asks for it. */
  lemma ExpectedOptionalSteps(s: Settings, m: Media)
    ensures var steps := ExpectedSteps(s, m);
      && (ProbeAudio in steps <==> s.useSeparateAudio && m.audioFound)
      && (MeasureLoudness in steps <==> s.normalizeAudio)
      && (GrabLastFrame in steps <==> s.bufferDuration > 0)
      && (RenderStillBuffer in steps <==> s.bufferDuration > 0)
      && (JoinClips in steps <==> s.bufferDuration > 0)
      && ProbeVideo in steps && CropAndExtract in steps && FinalEncode in steps
  {
  }

  lemma OptionalStepsIff(jobId: string, s: Settings, m: Media)
    ensures var steps := Steps(StagePlan(jobId, s, m));
      && (ProbeAudio in steps <==> s.useSeparateAudio && m.audioFound)
      && (MeasureLoudness in steps <==> s.normalizeAudio)
      && (GrabLastFrame in steps <==> s.bufferDuration > 0)
      && (RenderStillBuffer in steps <==> s.bufferDuration > 0)
      && (JoinClips in steps <==> s.bufferDuration > 0)
      && ProbeVideo in steps && CropAndExtract in steps && FinalEncode in steps
  {
    PlanSteps(jobId, s, m);
    ExpectedOptionalSteps(s, m);
  }

  /** Audio is kept as PCM until the last step, the only one that encodes AAC. */
  lemma AacOnlyAtTheEnd(jobId: string, s: Settings, m: Media)
    ensures var steps := Steps(StagePlan(jobId, s, m));
      && |steps| > 0 && steps[|steps| - 1] == FinalEncode
      && forall i :: 0 <= i < |steps| - 1 ==> AudioCodecOf(steps[i]) != Some(Aac)
  {
    PlanSteps(jobId, s, m);
  }

  /** The records written along the way, as the progress bar sees them. */
  function ExpectedMarks(jobId: string, s: Settings): seq<JobRecord> {
    (if s.normalizeAudio then [AnalyzingRecord] else [])
    + [CombiningRecord]
    + (if s.bufferDuration > 0 then [BufferingRecord, JoiningRecord] else [])
    + [EncodingRecord]
    + [Finished(OutputName(jobId))]
  }

  lemma PlanMarks(jobId: string, s: Settings, m: Media)
    ensures Marks(StagePlan(jobId, s, m)) == ExpectedMarks(jobId, s)
  {
    var fin: seq<Event> := [Mark(Finished(OutputName(jobId)))];
    MarksThroughEncode(s, m);
    MarksAppend(PlanBody(s, m), fin);
    MarksHead(fin[0], []);
    assert fin == [fin[0]] + [];
  }

  lemma MarksThroughCombined(s: Settings, m: Media)
    ensures Marks(ProbeSegment(s, m) + LoudnessSegment(s) + CombinedSegment())
         == Marks(LoudnessSegment(s)) + [CombiningRecord]
  {
    MarksAppend(ProbeSegment(s, m) + LoudnessSegment(s), CombinedSegment());
    MarksAppend(ProbeSegment(s, m), LoudnessSegment(s));
    ProbeSegmentMarks(s, m);
    DropEmpty(Marks(ProbeSegment(s, m)), Marks(LoudnessSegment(s)));
    FixedSegmentMarks();
  }

  lemma MarksThroughEncode(s: Settings, m: Media)
    ensures Marks(PlanBody(s, m))
         == (if s.normalizeAudio then [AnalyzingRecord] else [])
            + [CombiningRecord]
            + (if s.bufferDuration > 0 then [BufferingRecord, JoiningRecord] else [])
            + [EncodingRecord]
  {
    var front := ProbeSegment(s, m) + LoudnessSegment(s) + CombinedSegment();
    MarksThroughCombined(s, m);
    MarksAppend(front + BufferSegment(s), EncodeSegment());
    MarksAppend(front, BufferSegment(s));
    LoudnessSegmentMarks(s);
    FixedSegmentMarks();
    BufferSegmentMarks(s);
  }

  lemma ProbeSegmentMarks(s: Settings, m: Media)
    ensures Marks(ProbeSegment(s, m)) == []
  {
    var probe := ProbeSegment(s, m);
    if |probe| == 2 {
      assert Marks(probe[1..]) == [];
    }
  }

  lemma LoudnessSegmentMarks(s: Settings)
    ensures Marks(LoudnessSegment(s)) == if s.normalizeAudio then [AnalyzingRecord] else []
  {
    var loud := LoudnessSegment(s);
    if loud != [] {
      assert Marks(loud[1..]) == [];
    }
  }

  lemma FixedSegmentMarks()
    ensures Marks(CombinedSegment()) == [CombiningRecord]
    ensures Marks(EncodeSegment()) == [EncodingRecord]
  {
    assert Marks(CombinedSegment()[1..]) == [];
    assert Marks(EncodeSegment()[1..]) == [];
  }

  lemma BufferSegmentMarks(s: Settings)
    ensures Marks(BufferSegment(s)) == if s.bufferDuration > 0 then [BufferingRecord, JoiningRecord] else []
  {
    var buf := BufferSegment(s);
    if buf != [] {
      assert Marks(buf[4..]) == [];
      assert Marks(buf[3..]) == [JoiningRecord];
      assert Marks(buf[2..]) == [JoiningRecord];
      assert Marks(buf[1..]) == [JoiningRecord];
    }
  }

  lemma DropEmpty<T>(a: seq<T>, b: seq<T>)
    requires a == []
    ensures a + b == b
  {
  }

  /** Every record carries a progress, and each one's is larger than the one
      before it. */
  predicate ProgressMovesForward(records: seq<JobRecord>) {
    && (forall i :: 0 <= i < |records| ==> records[i].ProgressOf().Some?)
    && (forall i, j :: 0 <= i < j < |records| ==>
          records[i].ProgressOf().value < records[j].ProgressOf().value)
  }

  lemma ExpectedProgress(jobId: string, s: Settings)
    ensures ProgressMovesForward([StartingRecord] + ExpectedMarks(jobId, s))
  {
    var fin := Finished(OutputName(jobId));
    var records := [StartingRecord] + ExpectedMarks(jobId, s);
    if s.normalizeAudio && s.bufferDuration > 0 {
      assert records == [StartingRecord, AnalyzingRecord, CombiningRecord, BufferingRecord,
                         JoiningRecord, EncodingRecord, fin];
      FullProgress(fin);
    } else if s.normalizeAudio {
      assert records == [StartingRecord, AnalyzingRecord, CombiningRecord, EncodingRecord, fin];
      NormalizedProgress(fin);
    } else if s.bufferDuration > 0 {
      assert records == [StartingRecord, CombiningRecord, BufferingRecord, JoiningRecord,
                         EncodingRecord, fin];
      BufferedProgress(fin);
    } else {
      assert records == [StartingRecord, CombiningRecord, EncodingRecord, fin];
      PlainProgress(fin);
    }
  }

  /** The stamps of each of the four plan shapes rise record by record. */
  lemma FullProgress(fin: JobRecord)
    requires fin.ProgressOf() == Some(100)
    ensures ProgressMovesForward([StartingRecord, AnalyzingRecord, CombiningRecord,
                                  BufferingRecord, JoiningRecord, EncodingRecord, fin])
  {
    StepwiseProgress([StartingRecord, AnalyzingRecord, CombiningRecord,
                      BufferingRecord, JoiningRecord, EncodingRecord, fin]);
  }

  lemma NormalizedProgress(fin: JobRecord)
    requires fin.ProgressOf() == Some(100)
    ensures ProgressMovesForward([StartingRecord, AnalyzingRecord, CombiningRecord,
                                  EncodingRecord, fin])
  {
    StepwiseProgress([StartingRecord, AnalyzingRecord, CombiningRecord, EncodingRecord, fin]);
  }

  lemma BufferedProgress(fin: JobRecord)
    requires fin.ProgressOf() == Some(100)
    ensures ProgressMovesForward([StartingRecord, CombiningRecord, BufferingRecord,
                                  JoiningRecord, EncodingRecord, fin])
  {
    StepwiseProgress([StartingRecord, CombiningRecord, BufferingRecord, JoiningRecord,
                      EncodingRecord, fin]);
  }

  lemma PlainProgress(fin: JobRecord)
    requires fin.ProgressOf() == Some(100)
    ensures ProgressMovesForward([StartingRecord, CombiningRecord, EncodingRecord, fin])
  {
    StepwiseProgress([StartingRecord, CombiningRecord, EncodingRecord, fin]);
  }

  /** Progress that rises from each record to the next rises across any two. */
  lemma StepwiseProgress(records: seq<JobRecord>)
    requires forall i :: 0 <= i < |records| ==> records[i].ProgressOf().Some?
    requires forall i :: 0 < i < |records| ==>
      records[i - 1].ProgressOf().value < records[i].ProgressOf().value
    ensures ProgressMovesForward(records)
  {
    forall i, j | 0 <= i < j < |records|
      ensures records[i].ProgressOf().value < records[j].ProgressOf().value
    {
      StepwiseRise(records, i, j);
    }
  }

  lemma {:induction false} StepwiseRise(records: seq<JobRecord>, i: nat, j: nat)
    requires i < j < |records|
    requires forall k :: 0 <= k < |records| ==> records[k].ProgressOf().Some?
    requires forall k :: 0 < k < |records| ==>
      records[k - 1].ProgressOf().value < records[k].ProgressOf().value
    ensures records[i].ProgressOf().value < records[j].ProgressOf().value
    decreases j - i
  {
    if i + 1 < j {
      StepwiseRise(records, i + 1, j);
    }
  }

  /** Progress only moves forward: from the `0` written when processing starts,
      every record of the plan carries a larger progress than the one before,
      ending at `100`. */
  lemma ProgressIncreases(jobId: string, s: Settings, m: Media)
    ensures ProgressMovesForward([StartingRecord] + Marks(StagePlan(jobId, s, m)))
    ensures var records := Marks(StagePlan(jobId, s, m));
      |records| > 0 && records[|records| - 1].ProgressOf() == Some(100)
  {
    PlanMarks(jobId, s, m);
    ExpectedProgress(jobId, s);
  }

  // ---------------------------------------------------------------- execution

  /** How one tool invocation ended: success, a non-zero exit with its standard
      error, or a Python exception raised around it (a timeout, a JSON decoding
      error, a missing stream, a `None` argument). */
  datatype Outcome = Succeeded | ExitStatus(stderr: string) | Raised(message: string)

  /** The error a step's outcome records on the job, if it stops the run. The
      loudness analysis is run without the exit check, so only an exception
      stops it. */
  function FailureOf(step: Step, outcome: Outcome): (r: Option<string>)
    ensures outcome.Succeeded? ==> r.None?
    ensures outcome.Raised? ==> r == Some(outcome.message)
    ensures outcome.ExitStatus? ==> (r.None? <==> step == MeasureLoudness)
  {
    match outcome
    case Succeeded => None
    case ExitStatus(stderr) => if step == MeasureLoudness then None else Some(FailureMessage(stderr))
    case Raised(message) => Some(message)
  }

  /** A non-zero exit of any step but the loudness analysis fails the job with the
      extracted ffmpeg diagnostic. */
  lemma ExitFailureMessage(step: Step, stderr: string)
    requires step != MeasureLoudness
    ensures FailureOf(step, ExitStatus(stderr)).Some?
    ensures StartsWith(FailureOf(step, ExitStatus(stderr)).value, FailurePrefix)
  {
  }

  /** The records a run writes, in order: each mark is written as it is reached,
      and the first failing step writes the error and ends the run. */
  function Execute(events: seq<Event>, outcome: Step -> Outcome): (writes: seq<JobRecord>)
    ensures |writes| <= |events|
    decreases |events|
  {
    if |events| == 0 then []
    else match events[0]
      case Mark(r) => [r] + Execute(events[1..], outcome)
      case Invoke(st) =>
        match FailureOf(st, outcome(st))
        case Some(message) => [Failed(message)]
        case None => Execute(events[1..], outcome)
  }

  /** No invocation in the events stops the run. */
  predicate AllSucceed(events: seq<Event>, outcome: Step -> Outcome) {
    forall i :: 0 <= i < |events| && events[i].Invoke? ==> Passes(events[i].step, outcome)
  }

  /** The step does not stop the run. */
  predicate Passes(step: Step, outcome: Step -> Outcome) {
    FailureOf(step, outcome(step)).None?
  }

  /** When every step succeeds, the run writes exactly the plan's marks. */
  lemma {:induction false} ExecuteAllSucceed(events: seq<Event>, outcome: Step -> Outcome)
    requires AllSucceed(events, outcome)
    ensures Execute(events, outcome) == Marks(events)
    decreases |events|
  {
    if |events| > 0 {
      AllSucceedSplit(events, outcome);
      ExecuteAllSucceed(events[1..], outcome);
      ExecutePassesHead(events[0], events[1..], outcome);
      MarksHead(events[0], events[1..]);
      assert [events[0]] + events[1..] == events;
    }
  }

  /** When a step fails after a successful prefix, the run writes the prefix's
      marks and then that step's error, and nothing after. */
  lemma {:induction false} ExecuteStopsAtFailure(pre: seq<Event>, st: Step, post: seq<Event>,
                                                 outcome: Step -> Outcome)
    requires AllSucceed(pre, outcome)
    requires FailureOf(st, outcome(st)).Some?
    ensures Execute(pre + [Invoke(st)] + post, outcome)
         == Marks(pre) + [Failed(FailureOf(st, outcome(st)).value)]
    decreases |pre|
  {
    var failed := Failed(FailureOf(st, outcome(st)).value);
    if |pre| == 0 {
      EmptyPrefix(pre, [Invoke(st)], post);
      ExecuteStopsHere(st, post, outcome);
    } else {
      var e := pre[0];
      var tail := pre[1..];
      var rest := tail + [Invoke(st)] + post;
      var head := if e.Mark? then [e.record] else [];
      AllSucceedSplit(pre, outcome);
      calc {
        Execute(pre + [Invoke(st)] + post, outcome);
        { SplitHead(pre, [Invoke(st)], post); }
        Execute([e] + rest, outcome);
        { ExecutePassesHead(e, rest, outcome); }
        head + Execute(rest, outcome);
        { ExecuteStopsAtFailure(tail, st, post, outcome); }
        head + (Marks(tail) + [failed]);
        (head + Marks(tail)) + [failed];
        { MarksHead(e, tail); SplitHead(pre, [], []); }
        Marks(pre) + [failed];
      }
    }
  }

  /** Taking the first element off a concatenation. */
  lemma SplitHead<T>(a: seq<T>, b: seq<T>, c: seq<T>)
    requires |a| > 0
    ensures a + b + c == [a[0]] + (a[1..] + b + c)
    ensures a == [a[0]] + a[1..]
  {
  }

  lemma EmptyPrefix<T>(a: seq<T>, b: seq<T>, c: seq<T>)
    requires |a| == 0
    ensures a + b + c == b + c
  {
  }

  /** A failing step ends the run with its error. */
  lemma ExecuteStopsHere(st: Step, post: seq<Event>, outcome: Step -> Outcome)
    requires FailureOf(st, outcome(st)).Some?
    ensures Execute([Invoke(st)] + post, outcome) == [Failed(FailureOf(st, outcome(st)).value)]
  {
    assert ([Invoke(st)] + post)[0] == Invoke(st);
  }

  /** A list of events none of which fails starts with one that does not fail,
      and goes on with a list none of which fails. */
  lemma AllSucceedSplit(events: seq<Event>, outcome: Step -> Outcome)
    requires |events| > 0 && AllSucceed(events, outcome)
    ensures events[0].Mark? || Passes(events[0].step, outcome)
    ensures AllSucceed(events[1..], outcome)
  {
    var tail := events[1..];
    forall i | 0 <= i < |tail| && tail[i].Invoke? ensures Passes(tail[i].step, outcome) {
      assert tail[i] == events[i + 1];
    }
  }

  /** A mark, or a step that does not fail, lets the run go on to the rest. */
  lemma ExecutePassesHead(e: Event, rest: seq<Event>, outcome: Step -> Outcome)
    requires e.Mark? || FailureOf(e.step, outcome(e.step)).None?
    ensures Execute([e] + rest, outcome) == (if e.Mark? then [e.record] else []) + Execute(rest, outcome)
  {
    assert ([e] + rest)[1..] == rest;
  }

  lemma MarksHead(e: Event, rest: seq<Event>)
    ensures Marks([e] + rest) == (if e.Mark? then [e.record] else []) + Marks(rest)
  {
    assert ([e] + rest)[1..] == rest;
  }

  /** A record the job stays in once written. */
  predicate IsTerminal(r: JobRecord) {
    r.StatusOf() == Complete || r.StatusOf() == Error
  }

  /** A plan whose marks are all in-flight records followed by one terminal record
      leaves the job in a terminal record, with only in-flight records before it. */
  lemma {:induction false} ExecuteEndsTerminal(body: seq<Event>, last: JobRecord, outcome: Step -> Outcome)
    requires forall r :: Mark(r) in body ==> r.Working?
    requires IsTerminal(last)
    ensures var writes := Execute(body + [Mark(last)], outcome);
      && |writes| > 0
      && IsTerminal(writes[|writes| - 1])
      && forall i :: 0 <= i < |writes| - 1 ==> writes[i].Working?
    decreases |body|
  {
    var events := body + [Mark(last)];
    if |body| == 0 {
      assert events == [Mark(last)];
      assert events[1..] == [];
    } else {
      assert events[1..] == body[1..] + [Mark(last)];
      assert forall r :: Mark(r) in body[1..] ==> Mark(r) in body;
      ExecuteEndsTerminal(body[1..], last, outcome);
      if body[0].Mark? {
        assert Mark(body[0].record) in body;
      }
    }
  }

  /** The run of a job whose directory was listed: `No clip found` without a
      clip, otherwise the plan, with the combined pass failing on a `None`
      input before ffmpeg starts. */
  function RunPipeline(jobId: string, clipFound: bool, s: Settings, m: Media,
                       outcome: Step -> Outcome): (writes: seq<JobRecord>)
    ensures !clipFound ==> writes == [Failed(NoClipFound)]
    ensures |writes| > 0 && IsTerminal(writes[|writes| - 1])
  {
    if !clipFound then [Failed(NoClipFound)]
    else
      var o := EffectiveOutcome(CombinedInputs(s, m).0, outcome);
      PlanBodyMarksProcessing(s, m);
      ExecuteEndsTerminal(PlanBody(s, m), Finished(OutputName(jobId)), o);
      Execute(StagePlan(jobId, s, m), o)
  }

  const NoClipFound := "No clip found"

  /** The message of the `TypeError` subprocess raises for a `None` argument. */
  const NonePathError := "expected str, bytes or os.PathLike object, not NoneType"

  function EffectiveOutcome(inputs: seq<Input>, outcome: Step -> Outcome): (o: Step -> Outcome)
    ensures forall st :: st != CropAndExtract ==> o(st) == outcome(st)
    ensures HasNoPath(inputs) ==> o(CropAndExtract) == Raised(NonePathError)
    ensures !HasNoPath(inputs) ==> o(CropAndExtract) == outcome(CropAndExtract)
  {
    st => if st == CropAndExtract && HasNoPath(inputs) then Raised(NonePathError) else outcome(st)
  }

  /** Every run ends in `complete` or `error`, and every record before the last
      is an in-flight `processing` record. */
  lemma RunEndsTerminal(jobId: string, clipFound: bool, s: Settings, m: Media,
                        outcome: Step -> Outcome)
    ensures var writes := RunPipeline(jobId, clipFound, s, m, outcome);
      && |writes| > 0
      && IsTerminal(writes[|writes| - 1])
      && forall i :: 0 <= i < |writes| - 1 ==> writes[i].StatusOf() == Processing
  {
    if clipFound {
      var o := EffectiveOutcome(CombinedInputs(s, m).0, outcome);
      var body := PlanBody(s, m);
      PlanBodyMarksProcessing(s, m);
      ExecuteEndsTerminal(body, Finished(OutputName(jobId)), o);
      PlanWritesProcessing(body, Finished(OutputName(jobId)), o);
    }
  }

  /** Every mark before the last one of the plan is an in-flight record. */
  lemma PlanBodyMarksProcessing(s: Settings, m: Media)
    ensures forall r :: Mark(r) in PlanBody(s, m) ==> r.Working? && r.status == Processing
  {
  }

  lemma PlanWritesProcessing(body: seq<Event>, last: JobRecord, outcome: Step -> Outcome)
    requires forall r :: Mark(r) in body ==> r.Working? && r.status == Processing
    requires IsTerminal(last) && !last.Working?
    ensures var writes := Execute(body + [Mark(last)], outcome);
      forall i :: 0 <= i < |writes| - 1 ==> writes[i].StatusOf() == Processing
  {
    var events := body + [Mark(last)];
    var writes := Execute(events, outcome);
    ExecuteEndsTerminal(body, last, outcome);
    forall i | 0 <= i < |writes| - 1 ensures writes[i].StatusOf() == Processing {
      ExecuteWritesComeFrom(events, outcome, i);
      assert Mark(writes[i]) in body;
    }
  }

  /** Every in-flight record a run writes is one of the plan's marks. */
  lemma {:induction false} ExecuteWritesComeFrom(events: seq<Event>, outcome: Step -> Outcome, i: nat)
    requires i < |Execute(events, outcome)|
    requires Execute(events, outcome)[i].Working?
    ensures Mark(Execute(events, outcome)[i]) in events
    decreases |events|
  {
    match events[0]
    case Mark(r) =>
      if i > 0 {
        ExecuteWritesComeFrom(events[1..], outcome, i - 1);
        assert forall e :: e in events[1..] ==> e in events;
      }
    case Invoke(st) =>
      if FailureOf(st, outcome(st)).None? {
        ExecuteWritesComeFrom(events[1..], outcome, i);
        assert forall e :: e in events[1..] ==> e in events;
      }
  }

  /** When every step succeeds, the job ends `complete` with the output named
      after it, having passed through every stamp of the plan. */
  lemma RunCompletes(jobId: string, s: Settings, m: Media, outcome: Step -> Outcome)
    requires !(s.useSeparateAudio && !m.audioFound)
    requires forall st :: FailureOf(st, outcome(st)).None?
    ensures RunPipeline(jobId, true, s, m, outcome) == ExpectedMarks(jobId, s)
  {
    var inputs := CombinedInputs(s, m).0;
    NoPathIff(s, m);
    var o := EffectiveOutcome(inputs, outcome);
    assert forall st :: o(st) == outcome(st);
    ExecuteAllSucceed(StagePlan(jobId, s, m), o);
    PlanMarks(jobId, s, m);
  }

  /** Separate audio requested without an audio file always fails the job, at
      the combined pass, after the records written before it. */
  lemma MissingAudioFails(jobId: string, s: Settings, m: Media, outcome: Step -> Outcome)
    requires s.useSeparateAudio && !m.audioFound
    ensures var writes := RunPipeline(jobId, true, s, m, outcome);
      |writes| > 0 && writes[|writes| - 1].StatusOf() == Error
  {
    NoPathIff(s, m);
    var o := EffectiveOutcome(CombinedInputs(s, m).0, outcome);
    PlanInvokesCombinedPass(jobId, s, m);
    PlanNeverMarksFailure(jobId, s, m);
    NeverFinishedWithFailingStep(StagePlan(jobId, s, m), o, CropAndExtract);
  }

  /** Every plan runs the combined pass and writes no failure record of its own. */
  lemma PlanInvokesCombinedPass(jobId: string, s: Settings, m: Media)
    ensures Invoke(CropAndExtract) in StagePlan(jobId, s, m)
  {
  }

  lemma PlanNeverMarksFailure(jobId: string, s: Settings, m: Media)
    ensures forall r :: Mark(r) in StagePlan(jobId, s, m) ==> !r.Failed?
  {
  }

  /** A run in which some planned step fails does not end with the plan's final
      record. */
  lemma {:induction false} NeverFinishedWithFailingStep(events: seq<Event>, outcome: Step -> Outcome, st: Step)
    requires Invoke(st) in events && FailureOf(st, outcome(st)).Some?
    requires forall r :: Mark(r) in events ==> !r.Failed?
    ensures var writes := Execute(events, outcome);
      |writes| > 0 && writes[|writes| - 1].Failed?
    decreases |events|
  {
    assert forall e :: e in events[1..] ==> e in events;
    match events[0]
    case Mark(r) =>
      assert Mark(r) in events;
      NeverFinishedWithFailingStep(events[1..], outcome, st);
    case Invoke(st0) =>
      if FailureOf(st0, outcome(st0)).None? {
        NeverFinishedWithFailingStep(events[1..], outcome, st);
      }
  }

  // ------------------------------------------------------------ process_video

  const InvalidJobId := "Invalid job_id"

  /** `/api/process`: a safe job id gets its record replaced by `Starting...`,
      whatever it held before; any other id is refused. */
  function StartProcessing(jobs: Registry, jobId: string): (r: Result<Registry, string>)
    ensures r.Err? <==> !IsSafeJobId(jobId)
    ensures r.Err? ==> r.error == InvalidJobId
    ensures r.Ok? ==> jobId in r.value && r.value[jobId] == StartingRecord
    ensures r.Ok? ==> forall k :: k in jobs && k != jobId ==> k in r.value && r.value[k] == jobs[k]
  {
    if jobId == "" || !IsSafeJobId(jobId) then Err(InvalidJobId)
    else Ok(jobs[jobId := StartingRecord])
  }

  /** `/api/process` behind the guard as written, which also admits a safe id
      followed by one newline. */
  function StartProcessingAsWritten(jobs: Registry, jobId: string): (r: Result<Registry, string>)
    ensures r.Err? <==> !IsSafeJobIdAsWritten(jobId)
    ensures r.Err? ==> r.error == InvalidJobId
    ensures r.Ok? ==> jobId in r.value && r.value[jobId] == StartingRecord
    ensures r.Ok? ==> forall k :: k in jobs && k != jobId ==> k in r.value && r.value[k] == jobs[k]
  {
    if jobId == "" || !IsSafeJobIdAsWritten(jobId) then Err(InvalidJobId)
    else Ok(jobs[jobId := StartingRecord])
  }

  /** The two endpoints differ only on an id that ends in a newline: there the
      one as written starts a job the intended one refuses. */
  lemma StartProcessingAsWrittenDiffers(jobs: Registry, jobId: string)
    ensures StartProcessingAsWritten(jobs, "a\n").Ok? && StartProcessing(jobs, "a\n").Err?
    ensures (|jobId| == 0 || jobId[|jobId| - 1] != '\n')
            ==> StartProcessingAsWritten(jobs, jobId) == StartProcessing(jobs, jobId)
  {
    AsWrittenAcceptsTrailingNewline();
    AsWrittenAgreesOtherwise(jobId);
  }

  /** A second request for a job already processing, or already complete, is not
      refused: it restarts the job from `Starting...`. */
  lemma ProcessingRestarts(jobs: Registry, jobId: string)
    requires IsSafeJobId(jobId) && jobId in jobs
    ensures StartProcessing(jobs, jobId).Ok?
    ensures StartProcessing(jobs, jobId).value.Keys == jobs.Keys
  {
  }
}

=== FILE: text.dfy ===
/** Models of the few Python `str` operations the application relies on:
    `strip`, `split` on one character, `join`, `lower`, `rsplit('.', 1)` and `in`. */
module Text {
  import opened Wrappers

  /** Python's `str.isspace()`: exactly the characters `str.strip()` removes by default. */
  predicate IsSpace(c: char) {
    || c == ' ' || '\t' <= c <= '\r' || '\U{1c}' <= c <= '\U{1f}'
    || c == '\U{85}' || c == '\U{a0}' || c == '\U{1680}'
    || '\U{2000}' <= c <= '\U{200a}' || c == '\U{2028}' || c == '\U{2029}'
    || c == '\U{202f}' || c == '\U{205f}' || c == '\U{3000}'
  }

  /** `s.lstrip(...)`: drops the longest prefix whose characters all satisfy `p`. */
  function StripLeft(s: string, p: char -> bool): (r: string)
    ensures |r| <= |s| && r == s[|s| - |r|..]
    ensures forall i :: 0 <= i < |s| - |r| ==> p(s[i])
    ensures r == [] || !p(r[0])
    decreases |s|
  {
    if |s| > 0 && p(s[0]) then StripLeft(s[1..], p) else s
  }

  /** `s.rstrip(...)`: drops the longest suffix whose characters all satisfy `p`. */
  function StripRight(s: string, p: char -> bool): (r: string)
    ensures |r| <= |s| && r == s[..|r|]
    ensures forall i :: |r| <= i < |s| ==> p(s[i])
    ensures r == [] || !p(r[|r| - 1])
    decreases |s|
  {
    if |s| > 0 && p(s[|s| - 1]) then StripRight(s[..|s| - 1], p) else s
  }

  function Strip(s: string, p: char -> bool): string {
    StripRight(StripLeft(s, p), p)
  }

  /** `s.strip()` with no argument. */
  function StripSpace(s: string): string {
    Strip(s, IsSpace)
  }

  /** A stripped non-empty string ends in a character that is not strippable. */
  lemma StripEndsUnstripped(s: string, p: char -> bool)
    requires Strip(s, p) != []
    ensures !p(Strip(s, p)[|Strip(s, p)| - 1])
  {
  }

  /** `s.split(sep)` for a one-character separator: the maximal separator-free runs,
      of which there is always at least one. */
  function Split(s: string, sep: char): (parts: seq<string>)
    ensures |parts| >= 1
    ensures forall i :: 0 <= i < |parts| ==> sep !in parts[i]
    decreases |s|
  {
    if |s| == 0 then [""]
    else
      var rest := Split(s[1..], sep);
      if s[0] == sep then [""] + rest
      else [[s[0]] + rest[0]] + rest[1..]
  }

  /** `sep.join(parts)`. */
  function Join(parts: seq<string>, sep: char): string
    decreases |parts|
  {
    if |parts| == 0 then ""
    else if |parts| == 1 then parts[0]
    else parts[0] + [sep] + Join(parts[1..], sep)
  }

  /** Joining the pieces of a split gives back the original text. */
  lemma {:induction false} JoinSplit(s: string, sep: char)
    ensures Join(Split(s, sep), sep) == s
    decreases |s|
  {
    if |s| > 0 {
      var rest := Split(s[1..], sep);
      JoinSplit(s[1..], sep);
      if s[0] == sep {
        assert Split(s, sep) == [""] + rest;
        assert ([""] + rest)[1..] == rest;
      } else if |rest| == 1 {
        assert Split(s, sep) == [[s[0]] + rest[0]];
      } else {
        var parts := Split(s, sep);
        assert parts[1..] == rest[1..];
        assert Join(rest, sep) == rest[0] + [sep] + Join(rest[1..], sep);
        assert s == [s[0]] + s[1..];
      }
    }
  }

  /** Splitting a separator-free word gives that word alone. */
  lemma {:induction false} SplitWord(w: string, sep: char)
    requires sep !in w
    ensures Split(w, sep) == [w]
    decreases |w|
  {
    if |w| > 0 {
      SplitWord(w[1..], sep);
      assert [w[0]] + w[1..] == w;
    }
  }

  /** Splitting a separator-free word followed by a separator and more text. */
  lemma {:induction false} SplitWordThenSep(w: string, sep: char, t: string)
    requires sep !in w
    ensures Split(w + [sep] + t, sep) == [w] + Split(t, sep)
    decreases |w|
  {
    var s := w + [sep] + t;
    if |w| == 0 {
      assert s == [sep] + t;
      assert s[1..] == t;
    } else {
      assert s[1..] == w[1..] + [sep] + t;
      SplitWordThenSep(w[1..], sep, t);
      assert [w[0]] + w[1..] == w;
    }
  }

  /** Splitting a join of separator-free pieces gives back the pieces. */
  lemma {:induction false} SplitJoin(parts: seq<string>, sep: char)
    requires |parts| >= 1
    requires forall i :: 0 <= i < |parts| ==> sep !in parts[i]
    ensures Split(Join(parts, sep), sep) == parts
    decreases |parts|
  {
    if |parts| == 1 {
      SplitWord(parts[0], sep);
    } else {
      SplitJoin(parts[1..], sep);
      SplitWordThenSep(parts[0], sep, Join(parts[1..], sep));
      assert [parts[0]] + parts[1..] == parts;
    }
  }

  /** A split whose source does not end in the separator has a non-empty last piece. */
  lemma LastPieceNonEmpty(s: string, sep: char)
    requires |s| > 0 && s[|s| - 1] != sep
    ensures var parts := Split(s, sep); parts[|parts| - 1] != ""
  {
    var parts := Split(s, sep);
    var last := parts[|parts| - 1];
    if last == "" {
      JoinSplit(s, sep);
      JoinEndsWithLast(parts, sep);
    }
  }

  /** A join ends with its last piece, preceded by a separator when there are several. */
  lemma {:induction false} JoinEndsWithLast(parts: seq<string>, sep: char)
    requires |parts| >= 2
    requires parts[|parts| - 1] == ""
    ensures var j := Join(parts, sep); |j| > 0 && j[|j| - 1] == sep
    decreases |parts|
  {
    if |parts| > 2 {
      JoinEndsWithLast(parts[1..], sep);
    }
  }

  /** A join ends with its last piece. */
  lemma {:induction false} JoinEndsWith(parts: seq<string>, sep: char)
    requires |parts| >= 1
    ensures var j := Join(parts, sep); var last := parts[|parts| - 1];
      |last| <= |j| && j[|j| - |last|..] == last
    decreases |parts|
  {
    if |parts| > 1 {
      JoinEndsWith(parts[1..], sep);
      var rest := Join(parts[1..], sep);
      var j := Join(parts, sep);
      assert j == (parts[0] + [sep]) + rest;
      assert j[|j| - |rest|..] == rest;
    }
  }

  /** In a join of several pieces, a separator stands just before the last piece. */
  lemma {:induction false} JoinSepBeforeLast(parts: seq<string>, sep: char)
    requires |parts| >= 2
    ensures var j := Join(parts, sep); var last := parts[|parts| - 1];
      |last| < |j| && j[|j| - |last| - 1] == sep
    decreases |parts|
  {
    var j := Join(parts, sep);
    var rest := Join(parts[1..], sep);
    var last := parts[|parts| - 1];
    assert j == (parts[0] + [sep]) + rest;
    if |parts| == 2 {
      assert rest == last;
    } else {
      JoinSepBeforeLast(parts[1..], sep);
      assert j[|j| - |last| - 1] == rest[|rest| - |last| - 1];
    }
  }

  /** Python's `str.lower()` on one character, for the ASCII letters. */
  function LowerChar(c: char): char {
    if 'A' <= c <= 'Z' then (c as int + 32) as char else c
  }

  /** `s.lower()`, character by character. */
  function Lower(s: string): (r: string)
    ensures |r| == |s|
    ensures forall i :: 0 <= i < |s| ==> r[i] == LowerChar(s[i])
  {
    seq(|s|, i requires 0 <= i < |s| => LowerChar(s[i]))
  }

  /** Lower-casing twice is lower-casing once. */
  lemma LowerIdempotent(s: string)
    ensures Lower(Lower(s)) == Lower(s)
  {
  }

  /** Lower-casing commutes with taking a suffix. */
  lemma LowerSuffix(s: string, k: nat)
    requires k <= |s|
    ensures Lower(s)[k..] == Lower(s[k..])
  {
  }

  predicate StartsWith(s: string, prefix: string) {
    |prefix| <= |s| && s[..|prefix|] == prefix
  }

  /** Python's `needle in haystack` for two strings. */
  predicate Contains(haystack: string, needle: string)
    decreases |haystack|
  {
    StartsWith(haystack, needle) || (|haystack| > 0 && Contains(haystack[1..], needle))
  }

  /** An occurrence at any offset counts as containment. */
  lemma {:induction false} ContainsAt(haystack: string, needle: string, k: nat)
    requires k <= |haystack| && StartsWith(haystack[k..], needle)
    ensures Contains(haystack, needle)
    decreases k
  {
    if k > 0 {
      assert haystack[1..][k - 1..] == haystack[k..];
      ContainsAt(haystack[1..], needle, k - 1);
    }
  }

  /** Containing `front + needle` implies containing `needle`. */
  lemma {:induction false} ContainsTail(haystack: string, front: string, needle: string)
    requires Contains(haystack, front + needle)
    ensures Contains(haystack, needle)
    decreases |haystack|
  {
    if StartsWith(haystack, front + needle) {
      assert haystack[|front|..][..|needle|] == (front + needle)[|front|..];
      ContainsAt(haystack, needle, |front|);
    } else {
      ContainsTail(haystack[1..], front, needle);
    }
  }

  /** A needle holding a character the haystack lacks does not occur in it. */
  lemma {:induction false} NotContainsMissingChar(haystack: string, needle: string, c: char)
    requires c in needle && c !in haystack
    ensures !Contains(haystack, needle)
    decreases |haystack|
  {
    if |haystack| > 0 {
      NotContainsMissingChar(haystack[1..], needle, c);
    }
  }

  /** A needle longer than the haystack does not occur in it. */
  lemma {:induction false} NotContainsLonger(haystack: string, needle: string)
    requires |haystack| < |needle|
    ensures !Contains(haystack, needle)
    decreases |haystack|
  {
    if |haystack| > 0 {
      NotContainsLonger(haystack[1..], needle);
    }
  }

  /** `s.rfind(c)` as an index: the last position holding `c`, or `None`. */
  function LastIndexOf(s: string, c: char): (r: Option<nat>)
    ensures r.None? <==> c !in s
    ensures r.Some? ==> r.value < |s| && s[r.value] == c && c !in s[r.value + 1..]
    decreases |s|
  {
    if |s| == 0 then None
    else if s[|s| - 1] == c then Some(|s| - 1)
    else
      var r := LastIndexOf(s[..|s| - 1], c);
      assert r.Some? ==> s[r.value + 1..] == s[..|s| - 1][r.value + 1..] + [s[|s| - 1]];
      assert r.None? ==> s == s[..|s| - 1] + [s[|s| - 1]];
      r
  }

  /** Lower-casing neither creates nor removes a character that is not a letter,
      so the last occurrence of one is found at the same place. */
  lemma {:induction false} LastIndexOfLower(s: string, c: char)
    requires !('A' <= c <= 'Z') && !('a' <= c <= 'z')
    ensures LastIndexOf(Lower(s), c) == LastIndexOf(s, c)
    decreases |s|
  {
    if |s| > 0 {
      LowerCharKeeps(s[|s| - 1], c);
      if s[|s| - 1] != c {
        LowerPrefix(s, |s| - 1);
        LastIndexOfLower(s[..|s| - 1], c);
      }
    }
  }

  /** A character lower-cases to a non-letter exactly when it is that non-letter. */
  lemma LowerCharKeeps(d: char, c: char)
    requires !('A' <= c <= 'Z') && !('a' <= c <= 'z')
    ensures LowerChar(d) == c <==> d == c
  {
  }

  lemma LowerPrefix(s: string, n: nat)
    requires n <= |s|
    ensures Lower(s)[..n] == Lower(s[..n])
  {
  }
}

=== FILE: timestamps.dfy ===
/** `parse_timestamp_to_seconds`: `HH:MM:SS`, `MM:SS` or `SS` to seconds. Python's
    `float()` is not modelled; it is the parameter `toFloat`, `None` where `float()`
    raises `ValueError`. */
module Timestamps {
  import opened Wrappers
  import opened Text

  /** The arithmetic on the numeric parts: three parts are hours, minutes and
      seconds, two are minutes and seconds, and any other count yields the first. */
  function SecondsOf(parts: seq<real>): real
    requires |parts| >= 1
  {
    if |parts| == 3 then parts[0] * 3600.0 + parts[1] * 60.0 + parts[2]
    else if |parts| == 2 then parts[0] * 60.0 + parts[1]
    else parts[0]
  }

  /** The h, m, s reading of a whole number of seconds, as a clock would print it. */
  function ClockParts(t: nat): (parts: seq<real>)
    ensures |parts| == 3
    ensures 0.0 <= parts[1] < 60.0 && 0.0 <= parts[2] < 60.0
  {
    [(t / 3600) as real, ((t % 3600) / 60) as real, (t % 60) as real]
  }

  /** The remainder modulo 60 is unique. */
  lemma Mod60Unique(t: int, q: int, r: int)
    requires 0 <= r < 60 && t == q * 60 + r
    ensures t % 60 == r
  {
  }

  /** Reading a clock-formatted time gives back the number of seconds. */
  lemma {:induction false} ClockPartsRoundTrip(t: nat)
    ensures SecondsOf(ClockParts(t)) == t as real
  {
    var h, r := t / 3600, t % 3600;
    var m, s := r / 60, r % 60;
    assert t == h * 3600 + r;
    assert r == m * 60 + s;
    Mod60Unique(t, h * 60 + m, s);
    var total := h * 3600 + m * 60 + s;
    assert total == t;
    assert (h as real) * 3600.0 + (m as real) * 60.0 + (s as real) == total as real;
  }

  /** Leading zero fields do not change the value: `0:M:S` reads as `M:S`, and
      `0:S` reads as `S`. */
  lemma ShorterFormsAgree(m: real, s: real)
    ensures SecondsOf([0.0, m, s]) == SecondsOf([m, s])
    ensures SecondsOf([0.0, s]) == SecondsOf([s])
  {
  }

  /** Four or more fields are not rejected: everything after the first is ignored. */
  lemma ExtraFieldsIgnored(parts: seq<real>)
    requires |parts| >= 4
    ensures SecondsOf(parts) == parts[0]
  {
  }

  /** `[float(p) for p in texts]`: the numbers, or the first text `float()` rejects. */
  function ToNumbers(texts: seq<string>, toFloat: string -> Option<real>): (r: Result<seq<real>, string>)
    ensures r.Ok? ==> |r.value| == |texts|
    ensures r.Ok? ==> forall i :: 0 <= i < |texts| ==> toFloat(texts[i]) == Some(r.value[i])
    ensures r.Err? ==> r.error in texts && toFloat(r.error).None?
    ensures r.Err? <==> exists i :: 0 <= i < |texts| && toFloat(texts[i]).None?
    decreases |texts|
  {
    if |texts| == 0 then Ok([])
    else match toFloat(texts[0])
      case None => Err(texts[0])
      case Some(x) =>
        match ToNumbers(texts[1..], toFloat)
        case Err(bad) => Err(bad)
        case Ok(rest) => Ok([x] + rest)
  }

  /** `parse_timestamp_to_seconds(ts)`: strip, split on `:`, convert every field, and
      combine; `Err` carries the field `float()` rejected. */
  function ParseTimestamp(ts: string, toFloat: string -> Option<real>): (r: Result<real, string>)
    ensures var fields := Split(StripSpace(ts), ':');
      r.Ok? <==> forall i :: 0 <= i < |fields| ==> toFloat(fields[i]).Some?
    ensures r.Err? ==> r.error in Split(StripSpace(ts), ':') && toFloat(r.error).None?
    ensures r.Err? ==> ':' !in r.error
  {
    var fields := Split(StripSpace(ts), ':');
    match ToNumbers(fields, toFloat)
    case Err(bad) => Err(bad)
    case Ok(parts) => Ok(SecondsOf(parts))
  }

  /** The text-level parser combines exactly the fields between the colons: with
      three fields h:m:s it yields `3600h + 60m + s`, with two m:s it yields
      `60m + s`, and with any other count the first field. */
  lemma ParseTimestampFields(ts: string, toFloat: string -> Option<real>)
    ensures var fields := Split(StripSpace(ts), ':');
      var r := ParseTimestamp(ts, toFloat);
      && (r.Ok? <==> forall i :: 0 <= i < |fields| ==> toFloat(fields[i]).Some?)
      && (r.Ok? && |fields| == 3 ==>
            r.value == toFloat(fields[0]).value * 3600.0 + toFloat(fields[1]).value * 60.0 + toFloat(fields[2]).value)
      && (r.Ok? && |fields| == 2 ==>
            r.value == toFloat(fields[0]).value * 60.0 + toFloat(fields[1]).value)
      && (r.Ok? && |fields| != 2 && |fields| != 3 ==> r.value == toFloat(fields[0]).value)
  {
  }
}

=== FILE: uploads.dfy ===
/** The extension check of the `/api/upload-video` handler (`upload_video`) and the
    records it writes. Saving the file and probing its duration are not modelled. */
module Uploads {
  import opened Wrappers
  import opened Text
  import opened Jobs

  const AllowedExtensions: set<string> := {"mp4", "mov", "avi", "mkv", "webm", "wmv", "m4v"}

  const UploadingRecord: JobRecord := Working(Uploading, 50, "Processing upload...")

  /** `filename.rsplit('.', 1)[1].lower()` when the name has a dot, `''` otherwise. */
  function ExtensionOf(filename: string): (ext: string)
    ensures '.' !in ext
    ensures '.' !in filename ==> ext == ""
  {
    match LastIndexOf(filename, '.')
    case None => ""
    case Some(k) => Lower(filename[k + 1..])
  }

  /** The extension is the lower-cased text after the last dot: the name is a stem,
      a dot, and a dot-free tail whose lower-case form is the extension. */
  lemma ExtensionSplitsName(filename: string)
    requires '.' in filename
    ensures var k := LastIndexOf(filename, '.').value;
      && filename == filename[..k] + "." + filename[k + 1..]
      && '.' !in filename[k + 1..]
      && ExtensionOf(filename) == Lower(filename[k + 1..])
  {
    var k := LastIndexOf(filename, '.').value;
    assert filename == filename[..k] + [filename[k]] + filename[k + 1..];
  }

  datatype UploadError =
    | NoVideoPart        // "No video file provided"
    | NoFileSelected     // "No file selected"
    | UnsupportedFormat  // "Unsupported file format. ..."

  /** An accepted upload: the job id, the name the clip is saved under, and the
      records written to the job, in order. */
  datatype Upload = Upload(id: string, savedName: string, writes: seq<JobRecord>)

  /** `upload_video`; `filename` is `None` when the form has no `video` part. */
  function StartUpload(filename: Option<string>, freshId: string): (r: Result<Upload, UploadError>)
    ensures r == Err(NoVideoPart) <==> filename.None?
    ensures r == Err(NoFileSelected) <==> filename == Some("")
    ensures r.Ok? <==> filename.Some? && ExtensionOf(filename.value) in AllowedExtensions
    ensures r.Ok? ==> r.value.savedName == "clip." + ExtensionOf(filename.value)
    ensures r.Ok? ==> r.value.id == freshId
  {
    match filename
    case None => Err(NoVideoPart)
    case Some(name) =>
      if name == "" then Err(NoFileSelected)
      else
        var ext := ExtensionOf(name);
        if ext !in AllowedExtensions then Err(UnsupportedFormat)
        else
          var saved := "clip." + ext;
          Ok(Upload(freshId, saved, [UploadingRecord, Fetched(saved, None)]))
  }

  /** The clip is saved under a fixed stem and one of the allowed extensions,
      whatever path the client sent: the name has no separator and no `..`. */
  lemma SavedNameIsSafe(filename: Option<string>, freshId: string)
    requires StartUpload(filename, freshId).Ok?
    ensures var saved := StartUpload(filename, freshId).value.savedName;
      && '/' !in saved && '\\' !in saved
      && exists ext :: ext in AllowedExtensions && saved == "clip." + ext
  {
    var ext := ExtensionOf(filename.value);
    assert ext in AllowedExtensions;
    assert '/' !in ext && '\\' !in ext;
  }

  /** An accepted upload passes through `uploading` at 50% and ends `downloaded`
      with the saved clip, ready for processing. */
  lemma UploadEndsDownloaded(filename: Option<string>, freshId: string)
    requires StartUpload(filename, freshId).Ok?
    ensures var u := StartUpload(filename, freshId).value;
      && |u.writes| == 2
      && u.writes[0].StatusOf() == Uploading && u.writes[0].ProgressOf() == Some(50)
      && u.writes[1] == Fetched(u.savedName, None) && u.writes[1].StatusOf() == Downloaded
  {
  }

  /** The extension check ignores case: a name and its lower-case form are treated
      alike. */
  lemma UploadIgnoresCase(filename: string, freshId: string)
    ensures StartUpload(Some(Lower(filename)), freshId) == StartUpload(Some(filename), freshId)
  {
    ExtensionIgnoresCase(filename);
    assert |Lower(filename)| == |filename|;
  }

  /** A name and its lower-case form have the same extension. */
  lemma {:induction false} ExtensionIgnoresCase(filename: string)
    ensures ExtensionOf(Lower(filename)) == ExtensionOf(filename)
  {
    LastIndexOfLower(filename, '.');
    match LastIndexOf(filename, '.')
    case None =>
    case Some(k) =>
      LowerSuffix(filename, k + 1);
      LowerIdempotent(filename[k + 1..]);
  }
}

=== FILE: video_urls.dfy ===
/** `clean_video_url`: reduces YouTube links to one canonical watch URL and passes
    every other link through. The parsing itself (`urlparse`, `parse_qs`) is not
    modelled: the cleaner receives the pieces it reads. */
module VideoUrls {
  import opened Wrappers
  import opened Text
  import opened JobIds

  /** The parts of `urlparse(url)` the cleaner looks at: the network location, the
      path, and the first value of the `v` query parameter as `parse_qs` reports it. */
  datatype UrlParts = UrlParts(netloc: string, path: string, v: Option<string>)

  const WatchPrefix: string := "https://www.youtube.com/watch?v="

  /** The canonical YouTube watch URL for a video id. */
  function WatchUrl(videoId: string): string {
    WatchPrefix + videoId
  }

  /** Reads the video id back out of a canonical watch URL. */
  function WatchIdOf(url: string): (r: Option<string>)
    ensures r.Some? ==> WatchUrl(r.value) == url
    ensures r.None? ==> !StartsWith(url, WatchPrefix)
  {
    if StartsWith(url, WatchPrefix) then Some(url[|WatchPrefix|..]) else None
  }

  /** Canonical watch URLs and video ids correspond one to one. */
  lemma WatchIdRoundTrip(videoId: string)
    ensures WatchIdOf(WatchUrl(videoId)) == Some(videoId)
  {
    assert WatchUrl(videoId)[..|WatchPrefix|] == WatchPrefix;
  }

  /** The platform a (lower-cased) network location is treated as, checked in the
      cleaner's order with substring matches. */
  datatype Platform = Instagram | TikTok | ShortYouTube | YouTube | Other

  /** The cleaner's chain of substring tests on the network location, first match
      wins; the contract describes every branch of the chain. */
  function PlatformOf(host: string): (p: Platform)
    ensures p == Instagram <==> Contains(host, "instagram.com") || Contains(host, "instagr.am")
    ensures p == TikTok ==> Contains(host, "tiktok.com")
    ensures p == ShortYouTube ==> Contains(host, "youtu.be") && !Contains(host, "tiktok.com")
    ensures p == YouTube ==> Contains(host, "youtube.com") && !Contains(host, "youtu.be")
                             && !Contains(host, "tiktok.com")
    ensures p == Other ==> !Contains(host, "tiktok.com") && !Contains(host, "youtu.be")
                           && !Contains(host, "youtube.com")
  {
    VmTikTokIsTikTok(host);
    if Contains(host, "instagram.com") || Contains(host, "instagr.am") then Instagram
    else if Contains(host, "tiktok.com") || Contains(host, "vm.tiktok.com") then TikTok
    else if Contains(host, "youtu.be") then ShortYouTube
    else if Contains(host, "youtube.com") then YouTube
    else Other
  }

  /** The second TikTok test adds nothing: a host containing `vm.tiktok.com`
      already contains `tiktok.com`. */
  lemma VmTikTokIsTikTok(host: string)
    ensures Contains(host, "vm.tiktok.com") ==> Contains(host, "tiktok.com")
  {
    if Contains(host, "vm.tiktok.com") {
      assert "vm.tiktok.com" == "vm." + "tiktok.com";
      ContainsTail(host, "vm.", "tiktok.com");
    }
  }

  function IsSlash(c: char): bool { c == '/' }

  /** `clean_video_url(url)`; `parsed` is `None` when `urlparse` raises, in which
      case the URL is returned as it came. */
  function CleanVideoUrl(url: string, parsed: Option<UrlParts>): (r: string)
    ensures r == url || WatchIdOf(r).Some?
    ensures r == "" <==> url == ""
  {
    if url == "" || parsed.None? then url
    else
      var p := parsed.value;
      match PlatformOf(Lower(p.netloc))
      case ShortYouTube => WatchUrl(Strip(p.path, IsSlash))
      case YouTube =>
        if p.v.Some? && p.v.value != "" then WatchUrl(p.v.value) else url
      case _ => url
  }

  /** Instagram and TikTok links, and links to any host the cleaner does not know,
      come back unchanged. */
  lemma CleanPassesOtherHosts(url: string, p: UrlParts)
    requires PlatformOf(Lower(p.netloc)) in {Instagram, TikTok, Other}
    ensures CleanVideoUrl(url, Some(p)) == url
  {
  }

  /** A `youtu.be/ID` link becomes the watch URL of `ID`, the path with its
      surrounding slashes removed. */
  lemma CleanShortLink(url: string, p: UrlParts)
    requires url != "" && PlatformOf(Lower(p.netloc)) == ShortYouTube
    ensures var id := WatchIdOf(CleanVideoUrl(url, Some(p)));
      && id.Some?
      && Strip(p.path, IsSlash) == id.value
      && (id.value == [] || (id.value[0] != '/' && id.value[|id.value| - 1] != '/'))
  {
    WatchIdRoundTrip(Strip(p.path, IsSlash));
  }

  /** A youtube.com link keeps only its `v` parameter; without one it is unchanged. */
  lemma CleanWatchLink(url: string, p: UrlParts)
    requires url != "" && PlatformOf(Lower(p.netloc)) == YouTube
    ensures p.v.Some? && p.v.value != "" ==> WatchIdOf(CleanVideoUrl(url, Some(p))) == Some(p.v.value)
    ensures p.v.None? || p.v.value == "" ==> CleanVideoUrl(url, Some(p)) == url
  {
    if p.v.Some? && p.v.value != "" {
      WatchIdRoundTrip(p.v.value);
    }
  }

  const CanonicalHost: string := "www.youtube.com"

  lemma CanonicalHostNotShortLink(host: string)
    requires host == CanonicalHost
    ensures !Contains(host, "youtu.be")
  {
    var n := "youtu.be";
    NotContainsLonger(host[8..], n);
    assert !StartsWith(host[7..], n) by { assert host[7] != n[0]; }
    assert !StartsWith(host[6..], n) by { assert host[6] != n[0]; }
    assert !StartsWith(host[5..], n) by { assert host[5] != n[0]; }
    assert !StartsWith(host[4..], n) by { assert host[9] != n[5]; }
    assert !StartsWith(host[3..], n) by { assert host[3] != n[0]; }
    assert !StartsWith(host[2..], n) by { assert host[2] != n[0]; }
    assert !StartsWith(host[1..], n) by { assert host[1] != n[0]; }
    assert !StartsWith(host, n) by { assert host[0] != n[0]; }
    assert forall k :: 0 <= k < 8 ==> host[k..][1..] == host[k + 1..];
  }

  /** Every Instagram and TikTok marker contains an `i`, so a host without one is
      neither. */
  lemma HostWithoutIIsNotSocial(host: string)
    requires 'i' !in host
    ensures !Contains(host, "instagram.com") && !Contains(host, "instagr.am")
    ensures !Contains(host, "tiktok.com") && !Contains(host, "vm.tiktok.com")
  {
    assert "instagram.com"[0] == 'i' && "instagr.am"[0] == 'i';
    assert "tiktok.com"[1] == 'i' && "vm.tiktok.com"[4] == 'i';
    NotContainsMissingChar(host, "instagram.com", 'i');
    NotContainsMissingChar(host, "instagr.am", 'i');
    NotContainsMissingChar(host, "tiktok.com", 'i');
    NotContainsMissingChar(host, "vm.tiktok.com", 'i');
  }

  lemma CanonicalHostIsLowerCase(host: string)
    requires host == CanonicalHost
    ensures Lower(host) == host
  {
  }

  /** The host of a canonical watch URL is classified as YouTube. */
  lemma CanonicalHostIsYouTube(host: string)
    requires host == CanonicalHost
    ensures PlatformOf(host) == YouTube
  {
    CanonicalHostHasNoI(host);
    HostWithoutIIsNotSocial(host);
    CanonicalHostNotShortLink(host);
    CanonicalHostNamesYouTube(host);
  }

  lemma CanonicalHostHasNoI(host: string)
    requires host == CanonicalHost
    ensures 'i' !in host
  {
  }

  lemma CanonicalHostNamesYouTube(host: string)
    requires host == CanonicalHost
    ensures Contains(host, "youtube.com")
  {
    assert host[4..][..11] == "youtube.com";
    ContainsAt(host, "youtube.com", 4);
  }

  /** A non-empty id of letters, digits, `_` and `-`: the alphabet of YouTube video
      ids, and the same class the job-id guard accepts. */
  predicate IsPlainVideoId(videoId: string) {
    IsSafeJobId(videoId)
  }

  /** Cleaning is idempotent on what it produces, for ids made of letters, digits,
      `_` and `-` (the characters of YouTube video ids): for such an id the canonical
      watch URL splits into the host `www.youtube.com`, the path `/watch` and a `v`
      parameter that `parse_qs` reads back as the id itself, and the URL comes back
      unchanged. */
  lemma CleanCanonicalIsFixedPoint(videoId: string, parts: UrlParts)
    requires IsPlainVideoId(videoId)
    requires parts == UrlParts(CanonicalHost, "/watch", Some(videoId))
    ensures CleanVideoUrl(WatchUrl(videoId), Some(parts)) == WatchUrl(videoId)
  {
    CanonicalHostIsLowerCase(parts.netloc);
    CanonicalHostIsYouTube(parts.netloc);
  }
}

=== FILE: wrappers.dfy ===
/** Optional values and success-or-error results, used wherever the application
    returns `None`, an error response, or raises. */
module Wrappers {

  datatype Option<+T> = None | Some(value: T) {
    function GetOr(default: T): T {
      if Some? then value else default
    }
  }

  datatype Result<+T, +E> = Ok(value: T) | Err(error: E)
}
